=== FILE: README.md ===
# Open Library cover store and vendor helpers, modelled in Dafny

This project models the Open Library cover store (`openlibrary/coverstore/code.py`), which serves the image request `/<category>/<key>/<value>[-<size>].jpg`. Three vendor helpers of `openlibrary/core/vendors.py` are modelled alongside it.

The cover-store part covers:

- **Key translation.** An `id` is used as written. The `ia` key goes to archive.org. An `olid` is looked up under `/authors/`, `/books/` or `/works/`, by category. Every other key is looked up among editions, and only for category `b`: an `isbn` is normalised first, and `oclc` is renamed `oclc_numbers` (`get_cover_id`, `_query`).
- **The not-found policy.** A placeholder image, a 303 redirect to the caller's own fallback, or a bare 404.
- **The blocked-id check.**
- **The two archive.org redirects.**
  - The cluster layout `olcovers<shard>`, for large and original images below `10000 * max_coveritem_index`.
  - The legacy tars, for ids in `[8 000 000, 8 820 000)`. The item and tar names come from the first four and next two digits of `"%010d" % id`, so cover 8 500 000 is in item `covers_0008`, tar `covers_0008_50.tar` (`CoverRoute.LegacyRedirectExample`).
- **The detail lookup.** For ids below six million, the local tar indexes are consulted first, then the database (`get_details`, `get_tar_filename`, `get_tar_index`, `get_tarindex_path`).
- **The tar-index parser** `parse_tarindex`.
- **Address translation.** The shard `id / 10000`, truncated, and the slot `id % 10000`. The ids are zero-padded as `%06d` and `%010d`.
- **Caching and delivery.** A hundred-year expiry and an etag for requests by id, ten minutes otherwise. A 304 when the client's copy is current. A redirect into an archive.org zip for uploaded covers. Otherwise the image read from disk.

The vendor part covers:

- **`split_amazon_title`.** One left-to-right pass of the parenthetical-block regex, then a split at `:` into title units joined by the ISBD separator `" : "`. The last unit is the subtitle.
- **`clean_amazon_metadata_for_load`.** The ten conforming fields that are not `None`, the ASIN taken from the first source record when it starts with a letter, the split title, `full_title` and `subtitle` when the subtitle is non-empty, and a `notes` entry keeping the original title when the split changed it.
- **`betterworldbooks_fmt`.** The affiliate link, and the price display `"$<price> (<qlt>)"` when both are given.

## Modules

Each module is one file.

- `Wrappers`: `Option` and `Result`.
- `PyText`: the Python `str` operations the code relies on, which are `strip`, `split`, `join`, `replace(x, "")`, `in`, `startswith`, ASCII case mapping and the character classes.
- `PyInt`: Python's `"%0<w>d" % n` and `int(text)`.
- `CoverNames`: shard, slot, index path, tar member name and the archive.org URLs.
- `TarIndex`: the index file format and `parse_tarindex`.
- `CoverDetails`: `get_tar_index`, `get_tar_filename` and `get_details`.
- `CoverLookup`: `get_cover_id` and `_query`.
- `CoverRoute`: `cover.GET`.
- `ParenStrip`: the regex of `split_amazon_title`.
- `Vendors`: the three vendor helpers.

## External collaborators and error paths

The database, `ol_get`, `ol_things`, the archive.org metadata call and `archive.Cover.get_cover_url` are function parameters of the route. So are the conditional-GET test `web.modified` and `read_image`. Index files are a map from their path under the data root to their lines.

Python exceptions become explicit results:

- A malformed index line is a `MalformedLine` fault carrying the line number. The `ValueError` or `OverflowError` of `parse_tarindex` is not caught anywhere, so it escapes `cover.GET` as a server error, `ServerError(BadIndex(..))` (`CoverRoute.Route`).
- An uploaded cover from 8 820 000 whose record lacks `filename` makes the zip test raise `AttributeError`, because the record is a `web.storage` and `d.filename` is an attribute access. This is the server error `ServerError(NoFilename)` (`CoverRoute.Deliver`).
- An unparsable id is `None`.
- An unreadable image (`OSError`) is `NotFound`.
- The failures of `clean_amazon_metadata_for_load` are `CleanError` values.

## Model

| member | source | states |
|---|---|---|
| PyText.Strip | openlibrary/coverstore/code.py:402 | `strip()` leaves no whitespace at either end and never lengthens the text |
| PyText.StripPadded | openlibrary/core/vendors.py:337-338 | whitespace on either side of an already stripped unit is exactly what `strip()` removes |
| PyText.Split | openlibrary/coverstore/code.py:403 | `line.split("\t")` returns at least one field, no field holds a tab, and joining the fields with tabs gives the line back |
| PyText.SplitJoin | openlibrary/coverstore/code.py:403 | tab-free fields joined by tabs split back into exactly those fields |
| PyText.RemoveAll | openlibrary/coverstore/code.py:78 | `replace(pat, "")` never lengthens the text and adds no character; removing a one-character pattern leaves none of it behind |
| PyText.RemoveCharSpec | openlibrary/coverstore/code.py:78 | `replace("-", "")` leaves no hyphen and keeps every other character in order, as the reference `Without` does |
| PyText.RemoveAbsent | openlibrary/coverstore/code.py:78 | `replace(pat, "")` leaves text without `pat` unchanged |
| PyInt.Digits | openlibrary/coverstore/code.py:220 | the `%d` spelling of a natural number is a non-empty run of digits that reads back as the number |
| PyInt.FormatPadded | openlibrary/coverstore/code.py:277 | `"%0<w>d" % n` is at least `w` characters long and all digits exactly when `n >= 0`; its first character is `-` exactly when `n < 0` |
| PyInt.FormatPaddedParses | openlibrary/coverstore/code.py:404 | `int()` of `"%0<w>d" % n` gives back `n`, for every integer and every width |
| PyInt.ParseInt | openlibrary/coverstore/code.py:340-343 | `int()` refuses blank text, and a negative result needs a leading `-` once surrounding whitespace is removed |
| PyInt.NumericParses | openlibrary/coverstore/code.py:274-275 | a value that passes `isnumeric()` is accepted by `int()`, with the value of its digits |
| PyInt.PaddedLength | openlibrary/coverstore/code.py:375-376 | `"%0<w>d"` of a number below `10^w` is exactly `w` characters long |
| CoverNames.ShardOf | openlibrary/coverstore/code.py:366-367 | for a non-negative id, shard times 10 000 plus slot is the id; an id in (-10 000, 0) truncates to shard 0 |
| CoverNames.SlotOf | openlibrary/coverstore/code.py:367 | the slot is in `[0, 10000)` and differs from the id by a multiple of 10 000, as Python's `%` gives |
| CoverNames.ZipviewUrl | openlibrary/coverstore/code.py:215-222 | for a non-negative id the URL names item `olcovers<id // 10000>`, zip `<item><suffix>.zip` and file `<id><suffix>.jpg` |
| CoverNames.ZipItemIsShard | openlibrary/coverstore/code.py:217-218 | two non-negative ids share a cluster item exactly when they share a shard |
| CoverNames.TarIndexPath | openlibrary/coverstore/code.py:388-393 | the index file of a shard is `items/<item>/<stem>.index`, with item and stem taken from the first four and next two digits of `"%06d" % shard` |
| CoverNames.IndexPathNamesShard | openlibrary/coverstore/code.py:388-393 | two shards below a million have the same index file of a size only when they are the same shard |
| CoverNames.TarFileName | openlibrary/coverstore/code.py:373-376 | the tar member name is `<stem>.tar:<offset>:<size>`, with the stem taken from `"%010d" % id` |
| CoverNames.LegacyTarUrl | openlibrary/coverstore/code.py:276-283 | the legacy URL is under `<protocol>://archive.org/download/` and ends with the padded id, the size suffix and `.jpg` |
| CoverNames.PaddedIdSplits | openlibrary/coverstore/code.py:375 | `"%010d" % id` is `"%06d"` of its shard followed by `"%04d"` of its slot, for every non-negative id |
| CoverNames.IndexPathMatchesTarName | openlibrary/coverstore/code.py:364-393 | the index file consulted for an id and the tar member name built for it use the same item and stem digits of `"%010d" % id` |
| CoverNames.LegacyTarUrlUsesShardNames | openlibrary/coverstore/code.py:276-283 | the legacy archive.org URL is the local item, then the local stem with `.tar`, then the padded id with the size suffix |
| TarIndex.EmptyTable | openlibrary/coverstore/code.py:398-399 | the parser starts from two 10 000-slot arrays of zeros |
| TarIndex.ParseLine | openlibrary/coverstore/code.py:402-407 | a line is skipped exactly when it strips to nothing; otherwise it is read as the tab-separated fields of its stripped text; a parsed record's offset and size fit an `array('L')` element |
| TarIndex.ParseFields | openlibrary/coverstore/code.py:403-407 | anything but three fields is a field-count fault; a name whose first ten characters `int()` refuses is a conversion fault; with a good name the line is a record exactly when offset and size both convert and fit, and then the record holds those three values; otherwise the fault is the offset's, or, when the offset is good, the size's |
| TarIndex.ParseUnsigned | openlibrary/coverstore/code.py:406-407 | a field is stored exactly when `int()` accepts it and the value fits an unsigned long, and then its value is stored; a field `int()` refuses is a conversion fault (`ValueError`), and a value outside the unsigned long is a range fault (`OverflowError`) |
| TarIndex.Store | openlibrary/coverstore/code.py:405-407 | the slot of the cover id gets the offset and size; every other slot keeps its values |
| TarIndex.ParseTarIndex | openlibrary/coverstore/code.py:396-408 | a parse always yields two 10 000-slot arrays, and a failure names a line of the file |
| TarIndex.ParseFailsAtFirstBadLine | openlibrary/coverstore/code.py:401-407 | parsing fails exactly when some line is malformed, and then it reports the first such line with that line's own fault |
| TarIndex.LoadFailsAtFirstBadLine | openlibrary/coverstore/code.py:401-407 | folding the line results succeeds exactly when every line parsed, and otherwise reports the first failed line with its own fault |
| TarIndex.FirstBadLineReported | openlibrary/coverstore/code.py:401-407 | a malformed line after well-formed ones is reported with its 0-based number and its fault, whatever follows it |
| TarIndex.LoadIsLastWriteWins | openlibrary/coverstore/code.py:401-407 | every slot holds the offset and size of the last record for it, zeros where no record names it (reference `LastWriteTable`); errors agree with reading the records in order |
| TarIndex.BlankLineIsIgnored | openlibrary/coverstore/code.py:402 | a blank or whitespace-only line changes nothing |
| TarIndex.LaterRecordOverwrites | openlibrary/coverstore/code.py:405-407 | a later record is stored over whatever earlier lines put in its slot |
| TarIndex.IndexLineParses | openlibrary/coverstore/code.py:403-407 | the line `"%010d.jpg\t<offset>\t<size>"` parses back to its id, offset and size, for ids of up to ten digits and values an `array('L')` holds |
| TarIndex.NameSuffixIgnored | openlibrary/coverstore/code.py:403-407 | only the first ten characters of the name are read as the id: `"%010d" % id` followed by any tab-free text parses to that id, offset and size |
| TarIndex.AppendedLineReadsBack | openlibrary/coverstore/code.py:396-408 | appending an id's line to a well-formed index makes the id's slot read back that offset and size |
| CoverDetails.TrimMicrosecond | openlibrary/coverstore/code.py:206-208 | the same date and time with the microseconds set to zero and nothing else changed |
| CoverDetails.FilenameKey | openlibrary/coverstore/code.py:348 | the record key of a tar hit starts with `filename`, and is `filename` alone exactly for the original size |
| CoverDetails.TarSize | openlibrary/coverstore/code.py:346 | `size in "sml"` holds for every size class |
| CoverDetails.AsInt | openlibrary/coverstore/code.py:340-343 | a textual id is read by `int()`, with `None` where `int()` raises; a looked-up id is used as it is |
| CoverDetails.TarEntry | openlibrary/coverstore/code.py:348-351 | a tar hit is recorded with the id, the 2010-01-01 creation date and the path under `filename[_<size>]` |
| CoverDetails.LoadTarIndex | openlibrary/coverstore/code.py:382-385 | a missing index file gives no arrays; an existing one succeeds, with the parse's arrays, exactly when `parse_tarindex` does, and otherwise fails with the parse's fault |
| CoverDetails.LocateInTar | openlibrary/coverstore/code.py:364-376 | a path is returned exactly when the shard's index exists, parses and has a non-zero size in the id's slot, and it is `<stem>.tar:<offset>:<size>` of that slot; an index that fails to parse is a failure carrying the parse's own fault |
| CoverDetails.EverySizeIsTarSize | openlibrary/coverstore/code.py:346 | `size in "sml"` holds for every size, the empty size of an original image included |
| CoverDetails.GetDetails | openlibrary/coverstore/code.py:339-353 | a non-integer id has no record; an id of six million or more is the database's record; below six million, a failing index parse is passed on with its fault, a tar hit is the tar entry, and a tar miss is the database's record |
| CoverDetails.TarHitSkipsDatabase | openlibrary/coverstore/code.py:345-351 | a tar hit below six million is answered with the tar entry, whatever the database holds |
| CoverDetails.TarMissAsksDatabase | openlibrary/coverstore/code.py:345-353 | a tar miss below six million, and every id from six million on, is answered by the database |
| CoverDetails.BrokenIndexFailsDetails | openlibrary/coverstore/code.py:345-346 | an id below six million whose shard index exists but does not parse has no details: the parse fault is passed on and the database is not asked |
| CoverDetails.IndexedCoverIsFound | openlibrary/coverstore/code.py:364-376 | when the shard's index ends with the id's line, the id is located at that offset and size in the tar named after its padded id |
| CoverLookup.CoverList | openlibrary/coverstore/code.py:62-63 | an author document gives its `photos`, any other its `covers`, and a missing list gives `[]` |
| CoverLookup.DocCover | openlibrary/coverstore/code.py:64-67 | a document gives a cover exactly when its list is non-empty and starts with a positive id, and then it is that id (`[None]`, `[-1]` and `[0]` give none) |
| CoverLookup.KeyCover | openlibrary/coverstore/code.py:58-61 | a missing document gives no cover; otherwise the document's cover, which is always positive |
| CoverLookup.GetCoverId | openlibrary/coverstore/code.py:56-67 | the answer is a positive id, and there is none exactly when no key's document gives a cover |
| CoverLookup.GetCoverIdIsFirst | openlibrary/coverstore/code.py:58-67 | the answer is the cover of some key, and no earlier key gives one |
| CoverLookup.PlaceholderCoversAreSkipped | openlibrary/coverstore/code.py:64-66 | a document whose list starts with `None` or a non-positive id is passed over |
| CoverLookup.NormalizeIsbn | openlibrary/coverstore/code.py:78 | a normalised ISBN has no hyphen and no surrounding whitespace |
| CoverLookup.NormalizeIsbnIdempotent | openlibrary/coverstore/code.py:78 | normalising twice is normalising once |
| CoverLookup.Query | openlibrary/coverstore/code.py:70-84 | an `olid` of category `a`, `b` or `w` is looked up under `/authors/`, `/books/` or `/works/`; other keys only for editions, with `isbn` normalised and renamed `isbn_`, `oclc` renamed `oclc_numbers`; everything else has no cover |
| CoverLookup.IsbnHyphensIgnored | openlibrary/coverstore/code.py:76-83 | an ISBN lookup answers the same for a value and its normalised form |
| CoverRoute.NotFoundResponse | openlibrary/coverstore/code.py:233-243 | the placeholder exactly when one is configured, `default` is not `false` in any case and is not a URL; a 303 to `default` exactly when it is an `http(s)` URL; a 404 otherwise |
| CoverRoute.NotFoundIgnoresCover | openlibrary/coverstore/code.py:233-243 | the not-found answer depends only on `default` and the configuration, not on the category, key, value or size asked for |
| CoverRoute.DefaultFalseIsBare404 | openlibrary/coverstore/code.py:235-236 | `default=false`, in any case, always gives a bare 404 |
| CoverRoute.InCluster | openlibrary/coverstore/code.py:355-362 | a cover is in the cluster exactly when its id converts and is below `10000 * max_coveritem_index`; with no index configured no non-negative id is |
| CoverRoute.Blocked | openlibrary/coverstore/code.py:265 | an absent value is never blocked; a looked-up id is blocked when it is listed; a text value is blocked when `int()` accepts it and the id is listed |
| CoverRoute.ClusterGrows | openlibrary/coverstore/code.py:355-362 | raising `max_coveritem_index` keeps every cover that was in the cluster in it |
| CoverRoute.ClusterIsPrefix | openlibrary/coverstore/code.py:355-362 | the cluster is a prefix of the ids: a smaller id of a cover in it is in it too, `10000 * max_coveritem_index` is not, and the id just below it is whenever the index is positive |
| CoverRoute.LookupValue | openlibrary/coverstore/code.py:253-263 | an `id` value is used as written; an `isbn` is normalised and then answered by `_query`; every other key is answered by `_query` on the value as written; a looked-up value is nothing or a positive cover id |
| CoverRoute.CoverGet | openlibrary/coverstore/code.py:226-263 | the key is lower-cased; `ia` redirects to the archive.org URL when there is a non-empty one, and otherwise takes the not-found path; every other key is routed with the value `LookupValue` gives it |
| CoverRoute.Route | openlibrary/coverstore/code.py:265-287 | in order: an empty or blocked value is not found; a large or original image in the cluster is redirected to its zip; a numeric id in `[8 000 000, 8 820 000)` is redirected to its legacy tar; after those, a failing index parse is a server error, no record is not found, and a record is delivered; every redirect has one of the two redirect causes |
| CoverRoute.BlockedLeaksNothing | openlibrary/coverstore/code.py:265-266 | a blocked cover is answered as if nothing had been found, whatever the database, the indexes and the other collaborators hold |
| CoverRoute.RouteReachesDetails | openlibrary/coverstore/code.py:265-287 | an unblocked id below six million outside the cluster, with a record, is delivered with that record |
| CoverRoute.NumericValue | openlibrary/coverstore/code.py:274-275 | the `int()` of a numeric value is the one `get_details` uses |
| CoverRoute.IsNumericValue | openlibrary/coverstore/code.py:274 | a value that passes the numeric test converts with `int()`, and a numeric text is never negative; an absent value is not numeric |
| CoverRoute.CachingFor | openlibrary/coverstore/code.py:289-301 | requests by id carry the etag `<id>-<size>` and a hundred-year expiry; all others carry no etag and ten minutes |
| CoverRoute.Deliver | openlibrary/coverstore/code.py:289-315 | 304 exactly when keyed by id and `web.modified` says the copy is current; otherwise a server error exactly when an uploaded cover from 8 820 000 lacks `filename`; otherwise a redirect exactly for uploaded covers from 8 820 000 stored in a zip; otherwise a JPEG carrying exactly the bytes `read_image(d, size)` returned, when it can be read, else 404 |
| CoverRoute.ZipTestRaises | openlibrary/coverstore/code.py:307 | the zip test raises only for an uploaded cover from 8 820 000 whose record has no `filename` |
| CoverRoute.ArchiveZip | openlibrary/coverstore/code.py:307 | a zip redirect needs an uploaded cover from 8 820 000 and excludes the raising case; past those two tests it happens exactly when `filename` contains `.zip` |
| CoverRoute.ClusterOnlyLargeOrOriginal | openlibrary/coverstore/code.py:268-271 | for small and medium images the answer does not depend on `max_coveritem_index` |
| CoverRoute.TarEntryIsNeverZipped | openlibrary/coverstore/code.py:307 | a cover served from a tar index is never redirected into a zip and never reaches the `filename` lookup of the zip test |
| CoverRoute.EtagIdentifiesCover | openlibrary/coverstore/code.py:291 | two requests by id share an etag exactly when they ask for the same size of the same cover |
| CoverRoute.IsbnNormalisedOnce | openlibrary/coverstore/code.py:253-255 | the route's own ISBN normalisation before `_query` changes no answer |
| CoverRoute.ExamplePadded | openlibrary/coverstore/code.py:277 | `"%010d" % 8500000` is `0008500000` |
| CoverRoute.LegacyUrlOfPadded | openlibrary/coverstore/code.py:276-283 | the legacy URL of an original image is built from the first four and next two digits of its padded id |
| CoverRoute.LegacyUrlExample | openlibrary/coverstore/code.py:276-283 | cover 8 500 000 lives in item `covers_0008`, tar `covers_0008_50.tar`, file `0008500000.jpg` |
| CoverRoute.LegacyRedirectExample | openlibrary/coverstore/code.py:273-283 | a request for original cover `8500000`, unblocked and with no cluster, is redirected to that legacy URL |
| CoverRoute.TarIndexedRequest | openlibrary/coverstore/code.py:265-287 | a request by id whose value is the id's decimal spelling, for an unblocked id below six million (0 included) outside the cluster whose shard index ends with its line, is answered by `cover.GET` with delivery of its tar entry |
| CoverRoute.MalformedIndexIsServerError | openlibrary/coverstore/code.py:265-287 | a request by id for an unblocked cover below six million outside the cluster, whose shard index has a malformed line after well-formed ones, is a server error naming that line and its fault |
| CoverRoute.RouteReportsIndexFault | openlibrary/coverstore/code.py:265-287 | an unblocked id below six million outside the cluster whose detail lookup fails is answered with that fault as a server error |
| ParenStrip.MatchEnd | openlibrary/core/vendors.py:333 | a match of the block pattern spans at least `()` and ends at a `)` |
| ParenStrip.StripParens | openlibrary/core/vendors.py:333-334 | deleting blocks never lengthens the title |
| ParenStrip.UnmatchedUnchanged | openlibrary/core/vendors.py:333-334 | a title lacking either `(` or `)` is left unchanged |
| ParenStrip.KeepsPrefix | openlibrary/core/vendors.py:333-334 | text before the first `(` passes through and the rest is stripped on its own |
| ParenStrip.SimpleBlockRemoved | openlibrary/core/vendors.py:331-334 | a block `(x)` with no parentheses inside is deleted whole |
| ParenStrip.NestedBlockRemoved | openlibrary/core/vendors.py:331-334 | a block `(a(b)c)` with one nested pair is deleted whole |
| Vendors.SplitAmazonTitle | openlibrary/core/vendors.py:325-339 | there is a subtitle exactly when a `:` survives the block deletion; without one the title is the stripped remainder; a subtitle is stripped and has no `:` |
| Vendors.SplitUnits | openlibrary/core/vendors.py:336-338 | the same, for text already free of blocks |
| Vendors.UnitsRoundTrip | openlibrary/core/vendors.py:336-338 | stripped units without `:` joined by `" : "` split at `:` and strip back to the same units |
| Vendors.TitleRoundTrip | openlibrary/core/vendors.py:325-339 | `u1 : … : uk` (k >= 2, clean units) splits back into `u1 : … : u(k-1)` and the subtitle `uk` |
| Vendors.SplitOfStripped | openlibrary/core/vendors.py:336-338 | when the stripped `:`-units of a text number at least two, the title is all but the last joined by `" : "` and the subtitle is the last |
| Vendors.SingleUnitTitle | openlibrary/core/vendors.py:336-338 | a clean title without `:` is its own title and has no subtitle |
| Vendors.TrailingTagDropped | openlibrary/core/vendors.py:331-338 | `Title (Paperback)` becomes `Title`, with no subtitle |
| Vendors.KeyOf | openlibrary/core/vendors.py:351-367 | the key of a dictionary name spells that name back and is canonical: one of the fourteen names the cleaning step uses is never an `Other` key |
| Vendors.KeyOfName | openlibrary/core/vendors.py:351-367 | every canonical key is the key of its own name, so names and canonical keys correspond one to one |
| Vendors.Conforming | openlibrary/core/vendors.py:351-367 | exactly the ten conforming fields present and not `None`, with their values |
| Vendors.FirstSourceRecord | openlibrary/core/vendors.py:368-369 | `source_records[0]` of a truthy value exists exactly for a list or a string; for anything else Python raises, modelled as `None` |
| Vendors.AsinOf | openlibrary/core/vendors.py:369-372 | an error exactly when nothing is left after removing `amazon:`; the rest is kept exactly when it starts with a letter |
| Vendors.AmazonAsin | openlibrary/core/vendors.py:368-372 | no ASIN when `source_records` is missing or falsy; otherwise a first record that cannot be taken is an error, a non-text one is an error, and a text one gives the ASIN that `AsinOf` reads from it |
| Vendors.AmazonSourceRecordKept | openlibrary/core/vendors.py:368-372 | a record whose first source record is `amazon:<asin>`, with an ASIN starting with a letter, cleans successfully to identifiers `{'amazon': [asin]}` |
| Vendors.AmazonRecordAsin | openlibrary/core/vendors.py:369-372 | `amazon:<asin>` yields the ASIN when it starts with a letter, and nothing when it is an ISBN |
| Vendors.WithIdentifiers | openlibrary/core/vendors.py:370-372 | `identifiers` is `{'amazon': [asin]}` exactly when an ASIN was kept; no other key changes |
| Vendors.WithTitle | openlibrary/core/vendors.py:373-380 | the split title is written; `full_title` and `subtitle` appear exactly when the subtitle is non-empty; a note appears exactly when the original differs from the full title (or the title); no other key changes |
| Vendors.CleanAmazonMetadata | openlibrary/core/vendors.py:342-382 | cleaning fails exactly when the ASIN step fails or the title is missing or not text, and ASIN errors come first |
| Vendors.CleanedKeys | openlibrary/core/vendors.py:351-374 | the record holds the conforming fields that are not `None` and the title; any other key is one of `identifiers`, `full_title`, `subtitle`, `notes`; `identifiers` is there exactly when an ASIN was kept |
| Vendors.CleanedValues | openlibrary/core/vendors.py:363-374 | conforming fields keep their values and the title is the split title |
| Vendors.CleanedIdentifiers | openlibrary/core/vendors.py:370-372 | a kept ASIN is stored as `identifiers` `{'amazon': [asin]}` |
| Vendors.CleanedTitle | openlibrary/core/vendors.py:373-380 | `full_title` and `subtitle` exactly when the subtitle is non-empty; a note keeping the original exactly when it differs from the full title |
| Vendors.CanonicalTitleHasNoNote | openlibrary/core/vendors.py:373-380 | a title already in the form `A : B` becomes title `A` and subtitle `B`, with no note |
| Vendors.ChangedTitleGetsNote | openlibrary/core/vendors.py:378-380 | a title the split changed, with no subtitle, keeps the original in a note |
| Vendors.BetterWorldBooksFmt | openlibrary/core/vendors.py:488-507 | a price display exactly when both price and quality are non-empty, spelled `$<price> (<qlt>)`; the affiliate link for the ISBN; the other fields passed through |
| Vendors.BwbLink | openlibrary/core/vendors.py:35 | the affiliate link starts with the affiliate's link prefix and ends with the ISBN |
| Vendors.PriceDisplayRoundTrip | openlibrary/core/vendors.py:499 | the price display reads back into price and quality when the price holds no `(` |
| Vendors.BwbLinkNamesIsbn | openlibrary/core/vendors.py:35 | two offers of one affiliate share a link exactly when they share an ISBN |

## Left out

- I/O is not modelled. This covers opening index files, `os.path.exists`, reading images and files, HTTP requests, and `web.header`/`web.expires` as calls. These are parameters or values of the model instead.
- `web.memoize` on `get_tar_index` is left out, because caching does not change what the function returns.
- `get_ia_cover_url` is an opaque parameter. It is an HTTP call, and that includes its `KeyError` for the empty size.
- Failures of the Open Library API and the database are absent. Their results are values, never exceptions.
- The unused helper `redirect` inside `cover.GET` is not modelled.
- The upload, query, touch, delete and details handlers are not part of this model. Neither is `create_edition_from_amazon_metadata`.
- `safeint` (in `openlibrary/coverstore/utils.py`) is not part of this model. The blocked check uses `int()`. A value `int()` refuses reaches "not found" by the detail lookup either way.
- Floating-point shard computation is modelled as truncation toward zero. This is exact for ids below 2^53; ids beyond that, where the float loses precision, are left out.
- `int()`, `isnumeric()`, `isalpha()` and `lower()`/`upper()` are modelled on ASCII. Python also accepts other Unicode digits and letters.
- The body text of the 404 response is left out.
- A database record's file names are text. A `filename` column holding `NULL`, which would make the zip test raise `TypeError`, is not modelled; a record with no `filename` at all is `ServerError(NoFilename)`.
- The `uploaded` attribute of a tar entry is modelled as `false`. The code's `web.storage` lacks it, but that record never reaches the attribute access, because its id is below six million.
- The affiliate id is a parameter of `Vendors.BwbLink`. An affiliate id containing `%` (which would break the `%`-formatting) is not modelled.
- Dictionary key order is not modelled. Metadata keys are a datatype, with `Other` for keys the cleaning step does not name. A metadata map is taken to use the canonical form of each key (`Key.Canonical`): a named key is never spelled `Other("title")`.
- TarIndex.MaxUnsignedLong: an `array('L')` element is taken as the 64-bit unsigned long of LP64 builds (Linux and macOS). On builds whose `long` is 32 bits, the overflow bound is 2^32 - 1 instead.
- `market_price` is passed through as an opaque optional text.
- Vendors.ChangedTitleGetsNote: it is stated for any title the split changed. Tagged titles are connected to it through `Vendors.TrailingTagDropped`, not in one lemma.

=== FILE: cover_details.dfy ===
/** Locating one cover: the tar-index lookup (`get_tar_index`,
    `get_tar_filename`) and the detail record of a cover (`get_details`),
    with the database and the index files as parameters. */
module CoverDetails {
  import opened Wrappers
  import opened PyText
  import opened PyInt
  import opened CoverNames
  import opened TarIndex

  /** A `datetime.datetime`, field by field. */
  datatype DateTime = DateTime(year: int, month: int, day: int, hour: int, minute: int, second: int, microsecond: int)

  /** `trim_microsecond(date)`: the same instant with the microseconds
      dropped. */
  function TrimMicrosecond(d: DateTime): (r: DateTime)
    ensures r.microsecond == 0
    ensures r.(microsecond := d.microsecond) == d
  {
    DateTime(d.year, d.month, d.day, d.hour, d.minute, d.second, 0)
  }

  /** The creation date given to every cover served from a tar index. */
  const TarEpoch: DateTime := DateTime(2010, 1, 1, 0, 0, 0, 0)

  /** The value a cover request carries after key translation: nothing, the
      text of the URL, or the integer a lookup returned. */
  datatype Value = Absent | Text(text: string) | Number(n: int)

  /** `int(value)` (and `safeint(value)`): `None` where Python raises. */
  function AsInt(v: Value): (r: Option<int>)
    ensures v.Absent? ==> r.None?
    ensures v.Number? ==> r == Some(v.n)
    ensures v.Text? ==> r == ParseInt(v.text)
  {
    match v
    case Absent => None
    case Text(s) => ParseInt(s)
    case Number(n) => Some(n)
  }

  /** The detail record of a cover: its id, creation date, the stored file
      names keyed `filename`, `filename_s`, `filename_m`, `filename_l`, and
      whether the image was uploaded to archive.org. */
  datatype Details = Details(id: int, created: DateTime, files: map<string, string>, uploaded: bool)

  /** `f"filename_{size}" if size else "filename"`. */
  function FilenameKey(size: SizeClass): (key: string)
    ensures StartsWith(key, "filename")
    ensures key == "filename" <==> size.Original?
  {
    if size.Original? then "filename" else "filename_" + size.Lower()
  }

  /** The record `get_details` builds for a tar-index hit. */
  function TarEntry(id: int, size: SizeClass, path: string): (d: Details)
    ensures d.id == id && d.created == TarEpoch && d.files == map[FilenameKey(size) := path]
  {
    Details(id, TarEpoch, map[FilenameKey(size) := path], false)
  }

  /** `get_tar_index(tarindex, size)`: `None` for a missing index file (the
      `(None, None)` pair), the parsed arrays otherwise. Index files are
      given as a map from their path under the data root to their lines. */
  function LoadTarIndex(indexFiles: map<string, seq<string>>, shard: int, size: SizeClass): (r: Result<Option<Table>, IndexFault>)
    ensures TarIndexPath(shard, size) !in indexFiles ==> r == Success(None)
    ensures TarIndexPath(shard, size) in indexFiles ==>
      var parsed := ParseTarIndex(indexFiles[TarIndexPath(shard, size)]);
      && (r.Success? <==> parsed.Success?)
      && (r.Success? ==> r.value == Some(parsed.value))
      && (r.Failure? ==> r.error == parsed.error)
    ensures r.Success? && r.value.Some? ==> Valid(r.value.value)
  {
    var path := TarIndexPath(shard, size);
    if path !in indexFiles then Success(None)
    else
      match ParseTarIndex(indexFiles[path])
      case Failure(e) => Failure(e)
      case Success(t) => Success(Some(t))
  }

  /** `get_tar_filename(coverid, size)`: the `tarfile:offset:size` of a cover
      whose slot in its shard's index has a non-zero size, `None` when the
      index file is missing or the size is zero. */
  function LocateInTar(indexFiles: map<string, seq<string>>, id: int, size: SizeClass): (r: Result<Option<string>, IndexFault>)
    ensures r.Success? && r.value.Some? <==>
      var index := LoadTarIndex(indexFiles, ShardOf(id), size);
      index.Success? && index.value.Some? && index.value.value.sizes[SlotOf(id)] != 0
    ensures r.Success? && r.value.Some? ==>
      var t := LoadTarIndex(indexFiles, ShardOf(id), size).value.value;
      r.value.value == TarFileName(id, size, t.offsets[SlotOf(id)], t.sizes[SlotOf(id)])
    ensures TarIndexPath(ShardOf(id), size) !in indexFiles ==> r == Success(None)
    ensures r.Failure? <==> LoadTarIndex(indexFiles, ShardOf(id), size).Failure?
    ensures r.Failure? ==> r.error == LoadTarIndex(indexFiles, ShardOf(id), size).error
  {
    match LoadTarIndex(indexFiles, ShardOf(id), size)
    case Failure(e) => Failure(e)
    case Success(None) => Success(None)
    case Success(Some(t)) =>
      var k := SlotOf(id);
      if t.sizes[k] != 0 then Success(Some(TarFileName(id, size, t.offsets[k], t.sizes[k])))
      else Success(None)
  }

  /** The test `size in "sml"`: a substring test, which the empty size of an
      original image passes as well. */
  function TarSize(size: SizeClass): (b: bool)
    ensures b
  {
    EverySizeIsTarSize(size);
    Contains("sml", size.Lower())
  }

  /** Every size class takes the tar-index path, the original size included. */
  lemma EverySizeIsTarSize(size: SizeClass)
    ensures Contains("sml", size.Lower())
  {
    match size {
      case Original => assert StartsWith("sml", "");
      case Small => assert StartsWith("sml", "s");
      case Medium => assert StartsWith("sml"[1..], "m");
      case Large => assert StartsWith("sml"[2..], "l");
    }
  }

  /** Ids below this are looked up in the tar indexes first. */
  const TarIdLimit: int := 6_000_000

  /** `get_details(coverid, size)`: `None` for a non-integer id; for an id
      below six million, the tar-index entry when the index has one;
      otherwise the database record. */
  function GetDetails(indexFiles: map<string, seq<string>>, db: int -> Option<Details>, v: Value, size: SizeClass): (r: Result<Option<Details>, IndexFault>)
    ensures AsInt(v).None? ==> r == Success(None)
    ensures AsInt(v).Some? && AsInt(v).value >= TarIdLimit ==> r == Success(db(AsInt(v).value))
    ensures AsInt(v).Some? && AsInt(v).value < TarIdLimit ==>
      var located := LocateInTar(indexFiles, AsInt(v).value, size);
      && (located.Failure? ==> r == Failure(located.error))
      && (located.Success? && located.value.Some? ==> r == Success(Some(TarEntry(AsInt(v).value, size, located.value.value))))
      && (located == Success(None) ==> r == Success(db(AsInt(v).value)))
  {
    EverySizeIsTarSize(size);
    match AsInt(v)
    case None => Success(None)
    case Some(id) =>
      if id < TarIdLimit && TarSize(size) then
        match LocateInTar(indexFiles, id, size)
        case Failure(e) => Failure(e)
        case Success(Some(path)) => Success(Some(TarEntry(id, size, path)))
        case Success(None) => Success(db(id))
      else Success(db(id))
  }

  /** A tar-index hit is answered without the database: whatever the
      database holds, the record is the tar entry. */
  lemma TarHitSkipsDatabase(indexFiles: map<string, seq<string>>, db1: int -> Option<Details>, db2: int -> Option<Details>,
                            v: Value, size: SizeClass, path: string)
    requires AsInt(v).Some? && AsInt(v).value < TarIdLimit
    requires LocateInTar(indexFiles, AsInt(v).value, size) == Success(Some(path))
    ensures GetDetails(indexFiles, db1, v, size) == GetDetails(indexFiles, db2, v, size)
    ensures GetDetails(indexFiles, db1, v, size) == Success(Some(TarEntry(AsInt(v).value, size, path)))
  {
    EverySizeIsTarSize(size);
  }

  /** A tar miss below six million, and every id from six million on, is the
      database's answer. */
  lemma TarMissAsksDatabase(indexFiles: map<string, seq<string>>, db: int -> Option<Details>, v: Value, size: SizeClass)
    requires AsInt(v).Some?
    requires AsInt(v).value >= TarIdLimit || LocateInTar(indexFiles, AsInt(v).value, size) == Success(None)
    ensures GetDetails(indexFiles, db, v, size) == Success(db(AsInt(v).value))
  {
  }

  /** An id below six million whose shard index exists but does not parse
      has no details: the parse error is passed on, and the database is not
      asked. */
  lemma BrokenIndexFailsDetails(indexFiles: map<string, seq<string>>, db: int -> Option<Details>, v: Value, size: SizeClass)
    requires AsInt(v).Some? && 0 <= AsInt(v).value < TarIdLimit
    requires TarIndexPath(ShardOf(AsInt(v).value), size) in indexFiles
    requires ParseTarIndex(indexFiles[TarIndexPath(ShardOf(AsInt(v).value), size)]).Failure?
    ensures GetDetails(indexFiles, db, v, size)
      == Failure(ParseTarIndex(indexFiles[TarIndexPath(ShardOf(AsInt(v).value), size)]).error)
  {
  }

  /** End to end: when the index file of a cover's shard ends with the line
      the archiver wrote for it, with a non-zero size, the cover is found in
      the tar named after its padded id at that offset and size. */
  lemma IndexedCoverIsFound(indexFiles: map<string, seq<string>>, id: int, size: SizeClass,
                            earlier: seq<string>, offset: int, length: int)
    requires 0 <= id < 10_000_000_000
    requires 0 <= offset <= MaxUnsignedLong && 0 < length <= MaxUnsignedLong
    requires ParseTarIndex(earlier).Success?
    requires TarIndexPath(ShardOf(id), size) in indexFiles
    requires indexFiles[TarIndexPath(ShardOf(id), size)] == earlier + [IndexLine(id, offset, length)]
    ensures LocateInTar(indexFiles, id, size) == Success(Some(TarFileName(id, size, offset, length)))
  {
    AppendedLineReadsBack(earlier, id, offset, length);
  }
}

=== FILE: cover_lookup.dfy ===
/** Finding the cover of an Open Library record (`get_cover_id`, `_query`),
    with `ol_get` and `ol_things` as parameters. */
module CoverLookup {
  import opened Wrappers
  import opened PyText

  /** The parts of an Open Library document the lookup reads: its key and
      its `covers` and `photos` lists (`None` when the field is absent; an
      element is `None` where the list holds JSON `null`). */
  datatype Doc = Doc(key: string, covers: Option<seq<Option<int>>>, photos: Option<seq<Option<int>>>)

  /** `doc.get('photos' if is_author else 'covers', [])`. */
  function CoverList(doc: Doc): (l: seq<Option<int>>)
    ensures StartsWith(doc.key, "/authors") && doc.photos.Some? ==> l == doc.photos.value
    ensures !StartsWith(doc.key, "/authors") && doc.covers.Some? ==> l == doc.covers.value
    ensures (if StartsWith(doc.key, "/authors") then doc.photos else doc.covers).None? ==> l == []
  {
    var field := if StartsWith(doc.key, "/authors") then doc.photos else doc.covers;
    if field.Some? then field.value else []
  }

  /** The cover a document contributes: the first list entry when
      `(covers[0] or -1) >= 0`, which rejects `null`, negative values and
      also `0`. */
  function DocCover(doc: Doc): (c: Option<int>)
    ensures c.Some? <==> |CoverList(doc)| > 0 && CoverList(doc)[0].Some? && CoverList(doc)[0].value > 0
    ensures c.Some? ==> c == CoverList(doc)[0]
  {
    var covers := CoverList(doc);
    if |covers| > 0 then
      var first := if covers[0].Some? && covers[0].value != 0 then covers[0].value else -1;
      if first >= 0 then covers[0] else None
    else None
  }

  /** The cover of one key, `None` when the document does not exist. */
  function KeyCover(olGet: string -> Option<Doc>, olkey: string): (c: Option<int>)
    ensures olGet(olkey).None? ==> c.None?
    ensures olGet(olkey).Some? ==> c == DocCover(olGet(olkey).value)
    ensures c.Some? ==> c.value > 0
  {
    if olGet(olkey).Some? then DocCover(olGet(olkey).value) else None
  }

  /** `get_cover_id(olkeys)`: the cover of the first key whose document
      qualifies. */
  function GetCoverId(olGet: string -> Option<Doc>, olkeys: seq<string>): (r: Option<int>)
    ensures r.Some? ==> r.value > 0
    ensures r.None? <==> forall i :: 0 <= i < |olkeys| ==> KeyCover(olGet, olkeys[i]).None?
    decreases |olkeys|
  {
    if |olkeys| == 0 then None
    else if KeyCover(olGet, olkeys[0]).Some? then KeyCover(olGet, olkeys[0])
    else
      var rest := GetCoverId(olGet, olkeys[1..]);
      assert forall i :: 1 <= i < |olkeys| ==> olkeys[i] == olkeys[1..][i - 1];
      rest
  }

  /** The answer is the cover of the first qualifying key: every key before
      it has no cover. */
  lemma {:induction false} GetCoverIdIsFirst(olGet: string -> Option<Doc>, olkeys: seq<string>)
    requires GetCoverId(olGet, olkeys).Some?
    ensures exists i :: (0 <= i < |olkeys| && GetCoverId(olGet, olkeys) == KeyCover(olGet, olkeys[i])
                         && forall j :: 0 <= j < i ==> KeyCover(olGet, olkeys[j]).None?)
    decreases |olkeys|
  {
    if KeyCover(olGet, olkeys[0]).None? {
      var tail := olkeys[1..];
      GetCoverIdIsFirst(olGet, tail);
      var i :| 0 <= i < |tail| && GetCoverId(olGet, tail) == KeyCover(olGet, tail[i])
        && forall j :: 0 <= j < i ==> KeyCover(olGet, tail[j]).None?;
      assert olkeys[i + 1] == tail[i];
      assert forall j :: 1 <= j < i + 1 ==> olkeys[j] == tail[j - 1];
    } else {
      assert GetCoverId(olGet, olkeys) == KeyCover(olGet, olkeys[0]);
    }
  }

  /** A placeholder list such as `[None]`, `[-1]` or `[0]` counts as no
      cover at all. */
  lemma PlaceholderCoversAreSkipped(olGet: string -> Option<Doc>, olkey: string, rest: seq<string>)
    requires olGet(olkey).Some?
    requires var l := CoverList(olGet(olkey).value); |l| > 0 && (l[0].None? || l[0].value <= 0)
    ensures GetCoverId(olGet, [olkey] + rest) == GetCoverId(olGet, rest)
  {
    assert ([olkey] + rest)[1..] == rest;
  }

  /** The normalisation applied to an ISBN: `value.replace("-", "").strip()`. */
  function NormalizeIsbn(value: string): (r: string)
    ensures '-' !in r
    ensures Canonical(r)
  {
    var noHyphens := RemoveAll(value, "-");
    RemoveCharSpec(value, '-');
    StripKeepsOut(noHyphens, '-');
    Strip(noHyphens)
  }

  /** `strip()` only removes characters, so it adds none. */
  lemma StripKeepsOut(s: string, c: char)
    requires c !in s
    ensures c !in Strip(s)
  {
    var l := LStrip(s);
    SliceKeepsOut(s, |s| - |l|, |s|, c);
    var r := RStrip(l);
    SliceKeepsOut(l, 0, |r|, c);
  }

  lemma SliceKeepsOut(s: string, lo: nat, hi: nat, c: char)
    requires lo <= hi <= |s| && c !in s
    ensures c !in s[lo..hi]
  {
    assert forall i :: 0 <= i < hi - lo ==> s[lo..hi][i] == s[lo + i];
  }

  lemma {:induction false} AbsentCharNotContained(s: string, c: char)
    requires c !in s
    ensures !Contains(s, [c])
    decreases |s|
  {
    if |s| > 0 {
      assert s[0] != c;
      assert !StartsWith(s, [c]) by {
        assert s[..1][0] == s[0];
      }
      AbsentCharNotContained(s[1..], c);
    }
  }

  /** Normalising an ISBN twice is normalising it once, so the route's own
      normalisation before `_query` changes nothing. */
  lemma NormalizeIsbnIdempotent(value: string)
    ensures NormalizeIsbn(NormalizeIsbn(value)) == NormalizeIsbn(value)
  {
    var once := NormalizeIsbn(value);
    AbsentCharNotContained(once, '-');
    RemoveAbsent(once, "-");
    StripCanonical(once);
  }

  /** `_query(category, key, value)`. An `olid` key names a record by its
      path prefix (`a`, `b`, `w`); any other key is searched among editions
      (category `b`) only, with `isbn` normalised and renamed `isbn_`, and
      `oclc` renamed `oclc_numbers`. */
  function Query(olGet: string -> Option<Doc>, olThings: (string, string) -> seq<string>,
                 category: string, key: string, value: string): (r: Option<int>)
    ensures key == "olid" && category !in {"a", "b", "w"} ==> r.None?
    ensures key != "olid" && category != "b" ==> r.None?
    ensures key == "olid" && category == "a" ==> r == GetCoverId(olGet, ["/authors/" + value])
    ensures key == "olid" && category == "b" ==> r == GetCoverId(olGet, ["/books/" + value])
    ensures key == "olid" && category == "w" ==> r == GetCoverId(olGet, ["/works/" + value])
    ensures key == "isbn" && category == "b" ==> r == GetCoverId(olGet, olThings("isbn_", NormalizeIsbn(value)))
    ensures key == "oclc" && category == "b" ==> r == GetCoverId(olGet, olThings("oclc_numbers", value))
    ensures key !in {"olid", "isbn", "oclc"} && category == "b" ==> r == GetCoverId(olGet, olThings(key, value))
  {
    if key == "olid" then
      var prefixes := map["a" := "/authors/", "b" := "/books/", "w" := "/works/"];
      if category in prefixes then GetCoverId(olGet, [prefixes[category] + value]) else None
    else if category == "b" then
      var (key', value') := if key == "isbn" then ("isbn_", NormalizeIsbn(value)) else (key, value);
      var key'' := if key' == "oclc" then "oclc_numbers" else key';
      GetCoverId(olGet, olThings(key'', value'))
    else None
  }

  /** Hyphens and surrounding blanks in an ISBN do not change the answer. */
  lemma IsbnHyphensIgnored(olGet: string -> Option<Doc>, olThings: (string, string) -> seq<string>, value: string)
    ensures Query(olGet, olThings, "b", "isbn", value) == Query(olGet, olThings, "b", "isbn", NormalizeIsbn(value))
  {
    NormalizeIsbnIdempotent(value);
  }
}

=== FILE: cover_names.dfy ===
/** Address translation of the cover store: how a numeric cover id and a size
    class become a shard, a slot, a tar-index path, a tar member name and the
    archive.org URLs of the two remote layouts. */
module CoverNames {
  import opened PyText
  import opened PyInt

  /** Images per archive.org item, and per local tar shard. */
  const ItemSize: nat := 10000

  /** The size part of a cover URL: `-S`, `-M`, `-L`, or nothing at all. */
  datatype SizeClass = Small | Medium | Large | Original {

    /** The size as the request carries it. */
    function Upper(): string {
      match this
      case Small => "S"
      case Medium => "M"
      case Large => "L"
      case Original => ""
    }

    /** `size.lower()`. */
    function Lower(): string {
      match this
      case Small => "s"
      case Medium => "m"
      case Large => "l"
      case Original => ""
    }

    /** `size and f"-{size.upper()}"`: the file-name suffix of a size. */
    function Suffix(): string {
      if Original? then "" else "-" + Upper()
    }
  }

  /** The shard of a cover. The source computes `coverid / 10000` with true
      division and hands the float to `%d`-style formatting, which truncates
      toward zero; for a non-negative id this is floor division. */
  function ShardOf(id: int): (shard: int)
    ensures id >= 0 ==> shard >= 0 && shard * ItemSize + SlotOf(id) == id
    ensures -(ItemSize as int) < id < 0 ==> shard == 0 && shard * ItemSize + SlotOf(id) == id + ItemSize
  {
    if id >= 0 then id / ItemSize else -((-id) / ItemSize)
  }

  /** The slot of a cover inside its shard: Python's `coverid % 10000`,
      which is never negative. */
  function SlotOf(id: int): (slot: nat)
    ensures slot < ItemSize
    ensures (id - slot) % ItemSize == 0
  {
    id % ItemSize
  }

  /** `f"{size}_covers" if size else "covers"`, with the lower-case size. */
  function CoversPrefix(size: SizeClass): string {
    if size.Original? then "covers" else size.Lower() + "_covers"
  }

  /** The archive item a zero-padded number belongs to: `<prefix>_dddd`. */
  function ItemName(size: SizeClass, digits: string): string
    requires |digits| >= 4
  {
    CoversPrefix(size) + "_" + digits[..4]
  }

  /** The common stem of an index file and a tar file: `<prefix>_dddd_dd`. */
  function Stem(size: SizeClass, digits: string): string
    requires |digits| >= 6
  {
    ItemName(size, digits) + "_" + digits[4..6]
  }

  /** `get_tarindex_path(index, size)`: the index file of one shard, relative
      to the data root. */
  function TarIndexPath(shard: int, size: SizeClass): (path: string)
    ensures var digits := FormatPadded(shard, 6);
      path == "items/" + ItemName(size, digits) + "/" + Stem(size, digits) + ".index"
  {
    var name := FormatPadded(shard, 6);
    var prefix := CoversPrefix(size);
    var itemname := prefix + "_" + name[..4];
    var filename := prefix + "_" + name[..4] + "_" + name[4..6] + ".index";
    "items/" + itemname + "/" + filename
  }

  /** The `tarfile:offset:size` string `get_tar_filename` returns on a hit. */
  function TarFileName(id: int, size: SizeClass, offset: int, length: int): (name: string)
    ensures name == Stem(size, FormatPadded(id, 10)) + ".tar:" + FormatInt(offset) + ":" + FormatInt(length)
  {
    var name := FormatPadded(id, 10);
    CoversPrefix(size) + "_" + name[..4] + "_" + name[4..6] + ".tar:"
      + FormatInt(offset) + ":" + FormatInt(length)
  }

  /** The archive.org item of the cluster layout: `olcovers<shard>`. */
  function ZipItem(id: int): string
  {
    "olcovers" + FormatInt(ShardOf(id))
  }

  /** `zipview_url_from_id(coverid, size)`: the image inside the zip of the
      cover's archive.org item. */
  function ZipviewUrl(protocol: string, id: int, size: SizeClass): (url: string)
    ensures id >= 0 ==>
      url == protocol + "://archive.org/download/" + ("olcovers" + FormatInt(id / ItemSize)) + "/"
        + ("olcovers" + FormatInt(id / ItemSize) + size.Suffix() + ".zip") + "/"
        + (FormatInt(id) + size.Suffix() + ".jpg")
  {
    var itemid := ZipItem(id);
    var zipfile := itemid + size.Suffix() + ".zip";
    var filename := FormatInt(id) + size.Suffix() + ".jpg";
    protocol + "://archive.org/download/" + itemid + "/" + zipfile + "/" + filename
  }

  /** The archive.org location of a cover in the legacy range whose batches
      were tarred into `covers_0008`. */
  function LegacyTarUrl(protocol: string, id: int, size: SizeClass): (url: string)
    ensures StartsWith(url, protocol + "://archive.org/download/")
    ensures var file := FormatPadded(id, 10) + size.Suffix() + ".jpg";
      |file| <= |url| && url[|url| - |file|..] == file
  {
    var prefix := if size.Original? then "" else size.Lower() + "_";
    var pid := FormatPadded(id, 10);
    var itemId := prefix + "covers_" + pid[..4];
    var itemTar := prefix + "covers_" + pid[..4] + "_" + pid[4..6] + ".tar";
    var itemFile := pid + (if size.Original? then "" else "-" + size.Upper());
    var site := protocol + "://archive.org/download/";
    var folder := itemId + "/" + itemTar + "/";
    assert site + (folder + (itemFile + ".jpg")) == (site + folder) + (itemFile + ".jpg");
    site + (folder + (itemFile + ".jpg"))
  }

  /** `"%010d" % id` is `"%06d"` of its shard followed by `"%04d"` of its slot,
      for every non-negative id (an id of more than ten digits only makes the
      shard part longer). */
  lemma PaddedIdSplits(id: int)
    requires id >= 0
    ensures FormatPadded(id, 10) == FormatPadded(ShardOf(id), 6) + FormatPadded(SlotOf(id), 4)
  {
    var m := id % 10000;
    LastFourDigits(id);
    FourDigits(m);
    DigitArithmetic(id);
  }

  /** Distinct shards of one size have distinct index files: the path names
      its shard. */
  lemma IndexPathNamesShard(a: int, b: int, size: SizeClass)
    requires 0 <= a < 1_000_000 && 0 <= b < 1_000_000
    requires TarIndexPath(a, size) == TarIndexPath(b, size)
    ensures a == b
  {
    PaddedLength(a, 6);
    PaddedLength(b, 6);
    SameIndexPathSameDigits(size, FormatPadded(a, 6), FormatPadded(b, 6));
    FormatPaddedParses(a, 6);
    FormatPaddedParses(b, 6);
  }

  /** Index paths of one size that are equal were built from equal digits. */
  lemma SameIndexPathSameDigits(size: SizeClass, da: string, db: string)
    requires |da| == 6 && |db| == 6
    requires "items/" + ItemName(size, da) + "/" + Stem(size, da) + ".index"
          == "items/" + ItemName(size, db) + "/" + Stem(size, db) + ".index"
    ensures da == db
  {
    IndexPathHeadDigits(size, da);
    IndexPathHeadDigits(size, db);
    IndexPathTailDigits(size, da);
    IndexPathTailDigits(size, db);
    assert da == da[..4] + da[4..6] && db == db[..4] + db[4..6];
  }

  /** Where the first four shard digits sit in an index path. */
  lemma IndexPathHeadDigits(size: SizeClass, digits: string)
    requires |digits| == 6
    ensures var path := "items/" + ItemName(size, digits) + "/" + Stem(size, digits) + ".index";
      var at := |"items/" + CoversPrefix(size) + "_"|;
      at + 4 <= |path| && path[at..at + 4] == digits[..4]
  {
    var head := "items/" + CoversPrefix(size) + "_";
    var item := ItemName(size, digits);
    assert "items/" + item == head + digits[..4];
    PathHead(head, digits[..4], item, "/" + Stem(size, digits) + ".index");
  }

  /** A path that starts with `head` and then `dddd` holds `dddd` right after `head`. */
  lemma PathHead(head: string, dddd: string, item: string, rest: string)
    requires "items/" + item == head + dddd
    ensures var path := "items/" + item + rest;
      |head| + |dddd| <= |path| && path[|head|..|head| + |dddd|] == dddd
  {
    HeadSlice(head, dddd, rest);
    assert "items/" + item + rest == head + dddd + rest;
  }

  /** Where the last two shard digits sit in an index path. */
  lemma IndexPathTailDigits(size: SizeClass, digits: string)
    requires |digits| == 6
    ensures var path := "items/" + ItemName(size, digits) + "/" + Stem(size, digits) + ".index";
      8 <= |path| && path[|path| - 8..|path| - 6] == digits[4..6]
  {
    var item := ItemName(size, digits);
    PathTail("items/" + item + "/", item, digits[4..6]);
  }

  /** The two digits before `.index` are the last two of the stem. */
  lemma PathTail(front: string, item: string, dd: string)
    requires |dd| == 2
    ensures var path := front + (item + "_" + dd) + ".index";
      8 <= |path| && path[|path| - 8..|path| - 6] == dd
  {
    TailSlice(front + item + "_", dd, ".index");
    assert front + (item + "_" + dd) + ".index" == (front + item + "_") + dd + ".index";
  }

  /** The middle piece of a concatenation, counted from the front. */
  lemma HeadSlice(h: string, x: string, t: string)
    ensures (h + x + t)[|h|..|h| + |x|] == x
  {
  }

  /** The middle piece of a concatenation, counted from the back. */
  lemma TailSlice(h: string, y: string, t: string)
    ensures var s := h + y + t;
      s[|s| - |t| - |y|..|s| - |t|] == y
  {
  }

  /** The last four characters of `"%010d" % n` are its last four digits. */
  lemma LastFourDigits(n: nat)
    ensures FormatPadded(n, 10) == FormatPadded(n / 10000, 6)
      + [DigitChar(n / 1000 % 10), DigitChar(n / 100 % 10), DigitChar(n / 10 % 10), DigitChar(n % 10)]
  {
    DivisionChain(n);
    var c0, c1 := DigitChar(n % 10), DigitChar(n / 10 % 10);
    var c2, c3 := DigitChar(n / 100 % 10), DigitChar(n / 1000 % 10);
    var h := FormatPadded(n / 10000, 6);
    calc {
      FormatPadded(n, 10);
      { PeelDigit(n, 10); }
      FormatPadded(n / 10, 9) + [c0];
      { PeelDigit(n / 10, 9); }
      FormatPadded(n / 100, 8) + [c1] + [c0];
      { PeelDigit(n / 100, 8); }
      FormatPadded(n / 1000, 7) + [c2] + [c1] + [c0];
      { PeelDigit(n / 1000, 7); }
      h + [c3] + [c2] + [c1] + [c0];
      h + [c3, c2, c1, c0];
    }
  }

  /** `"%04d" % m` spelled digit by digit. */
  lemma FourDigits(m: nat)
    requires m < 10000
    ensures FormatPadded(m, 4) == [DigitChar(m / 1000), DigitChar(m / 100 % 10), DigitChar(m / 10 % 10), DigitChar(m % 10)]
  {
    DivisionChain(m);
    var c0, c1 := DigitChar(m % 10), DigitChar(m / 10 % 10);
    var c2, c3 := DigitChar(m / 100 % 10), DigitChar(m / 1000);
    SingleDigit(m / 1000);
    calc {
      FormatPadded(m, 4);
      { PeelDigit(m, 4); }
      FormatPadded(m / 10, 3) + [c0];
      { PeelDigit(m / 10, 3); }
      FormatPadded(m / 100, 2) + [c1] + [c0];
      { PeelDigit(m / 100, 2); }
      FormatPadded(m / 1000, 1) + [c2] + [c1] + [c0];
      [c3] + [c2] + [c1] + [c0];
    }
  }

  lemma SingleDigit(d: nat)
    requires d < 10
    ensures FormatPadded(d, 1) == [DigitChar(d)]
  {
  }

  /** The last four digits of `id` are the digits of `id % 10000`. */
  lemma DigitArithmetic(id: nat)
    ensures (id % 10000) / 1000 == id / 1000 % 10
    ensures (id % 10000) / 100 % 10 == id / 100 % 10
    ensures (id % 10000) / 10 % 10 == id / 10 % 10
    ensures (id % 10000) % 10 == id % 10
  {
    var a, m := id / 10000, id % 10000;
    DivisionChain(id);
    DivisionChain(m);
    var m1, m2, m3 := m / 10, m / 100, m / 1000;
    DivBlock(1000 * a + m1, m % 10);
    DivBlock(100 * a + m2, m1 % 10);
    DivBlock(10 * a + m3, m2 % 10);
    DivBlock(a, m3);
  }

  lemma DivBlock(a: nat, r: nat)
    requires r < 10
    ensures (10 * a + r) / 10 == a && (10 * a + r) % 10 == r
  {
  }

  lemma DivisionChain(n: nat)
    ensures n / 10 / 10 == n / 100 && n / 100 / 10 == n / 1000 && n / 1000 / 10 == n / 10000
  {
    assert n / 10 / 10 == n / 100;
    assert n / 100 / 10 == n / 1000;
    assert n / 1000 / 10 == n / 10000;
  }

  /** The tar-index file consulted for an id and the tar member name built
      for it share one stem: both take the same digits of `"%010d" % id`. */
  lemma IndexPathMatchesTarName(id: int, size: SizeClass, offset: int, length: int)
    requires id >= 0
    ensures var digits := FormatPadded(id, 10);
      && TarIndexPath(ShardOf(id), size) == "items/" + ItemName(size, digits) + "/" + Stem(size, digits) + ".index"
      && TarFileName(id, size, offset, length) == Stem(size, digits) + ".tar:" + FormatInt(offset) + ":" + FormatInt(length)
  {
    ShardDigits(id);
  }

  /** The first six characters of `"%010d" % id` are those of `"%06d"` of
      its shard. */
  lemma ShardDigits(id: int)
    requires id >= 0
    ensures var digits, shardDigits := FormatPadded(id, 10), FormatPadded(ShardOf(id), 6);
      && digits[..4] == shardDigits[..4] && digits[4..6] == shardDigits[4..6]
  {
    PaddedIdSplits(id);
    HeadSlices(FormatPadded(ShardOf(id), 6), FormatPadded(SlotOf(id), 4));
  }

  lemma HeadSlices(a: string, b: string)
    requires |a| >= 6
    ensures (a + b)[..4] == a[..4] && (a + b)[4..6] == a[4..6]
  {
  }

  /** The legacy archive.org layout uses the local shard naming: the same
      item and stem, with the image named by its padded id. */
  lemma LegacyTarUrlUsesShardNames(protocol: string, id: int, size: SizeClass)
    ensures var pid := FormatPadded(id, 10);
      LegacyTarUrl(protocol, id, size)
        == protocol + "://archive.org/download/" + ItemName(size, pid) + "/" + (Stem(size, pid) + ".tar") + "/"
           + (pid + size.Suffix()) + ".jpg"
  {
    var pid := FormatPadded(id, 10);
    var prefix := if size.Original? then "" else size.Lower() + "_";
    assert prefix + "covers_" == CoversPrefix(size) + "_";
    var item, tar := ItemName(size, pid), Stem(size, pid) + ".tar";
    assert prefix + "covers_" + pid[..4] == item;
    assert prefix + "covers_" + pid[..4] + "_" + pid[4..6] + ".tar" == tar;
    var site, file := protocol + "://archive.org/download/", pid + size.Suffix();
    assert LegacyTarUrl(protocol, id, size) == site + ((item + "/" + tar + "/") + (file + ".jpg"));
    UrlPieces(site, item, tar, file);
  }

  /** The pieces of a download URL, grouped either way. */
  lemma UrlPieces(site: string, item: string, tar: string, file: string)
    ensures site + ((item + "/" + tar + "/") + (file + ".jpg")) == site + item + "/" + tar + "/" + file + ".jpg"
  {
  }

  /** Two non-negative ids share a cluster item exactly when they share a
      shard: 10 000 consecutive ids per item. */
  lemma {:induction false} ZipItemIsShard(a: int, b: int)
    requires a >= 0 && b >= 0
    ensures ZipItem(a) == ZipItem(b) <==> a / ItemSize == b / ItemSize
  {
    if ZipItem(a) == ZipItem(b) {
      assert ZipItem(a)[8..] == FormatInt(ShardOf(a));
      assert ZipItem(b)[8..] == FormatInt(ShardOf(b));
      FormatPaddedParses(ShardOf(a), 0);
      FormatPaddedParses(ShardOf(b), 0);
    }
  }
}

=== FILE: cover_route.dfy ===
/** The image request `/<category>/<key>/<value>[-<size>].jpg` (`cover.GET`):
    key translation, the not-found policy, the order of the redirects, the
    detail lookup, caching and delivery. Configuration is a value; the
    database, the Open Library API, archive.org, conditional-GET evaluation
    and disk reads are parameters. */
module CoverRoute {
  import opened Wrappers
  import opened PyText
  import opened PyInt
  import opened CoverNames
  import opened TarIndex
  import opened CoverDetails
  import opened CoverLookup

  /** The settings the route reads: `blocked_covers`, `max_coveritem_index`
      (0 when unset) and `default_image` (empty when unset). */
  datatype Config = Config(blocked: set<int>, maxCoverItemIndex: int, defaultImage: string)

  /** One request: the URL parts, the `default` query parameter (`"true"`
      when absent) and the protocol it arrived on. */
  datatype Request = Request(category: string, key: string, value: string, size: SizeClass, default: string, protocol: string)

  type Bytes = seq<bv8>

  /** The collaborators of the route. */
  datatype Env = Env(
    indexFiles: map<string, seq<string>>,              // index files under the data root, as lines
    db: int -> Option<Details>,                         // db.details
    olGet: string -> Option<Doc>,                       // ol_get
    olThings: (string, string) -> seq<string>,          // ol_things
    iaCoverUrl: (string, SizeClass) -> Option<string>,  // get_ia_cover_url
    archiveCoverUrl: (int, SizeClass, string) -> string, // archive.Cover.get_cover_url
    modified: (DateTime, string) -> bool,               // web.modified(date, etag)
    readImage: (Details, SizeClass) -> Option<Bytes>)   // read_image; None where it raises OSError

  /** `Cache-Control: public` plus an `Expires` this many seconds ahead, and
      the etag when the request was keyed by id. */
  datatype Caching = Caching(etag: Option<string>, expiresIn: nat)

  /** One hundred years of 365 days, for images requested by id. */
  const ForeverSeconds: nat := 100 * 365 * 24 * 3600

  /** Ten minutes, for images found through a lookup. */
  const BriefSeconds: nat := 10 * 60

  /** The exceptions that escape the handler: a malformed tar index, or a
      zip test on a record with no `filename` (`'.zip' in d.filename` raises
      `AttributeError` or `TypeError`). */
  datatype ServerFault = BadIndex(error: IndexFault) | NoFilename

  /** What the handler answers. `Placeholder` serves the default image file,
      `SeeOther` and `Found` are the 303 and 302 redirects, `ServerError` is
      an exception escaping the handler. */
  datatype Response =
    | Placeholder(path: string)
    | SeeOther(url: string)
    | NotFound
    | Found(url: string)
    | NotModified
    | ArchiveFound(caching: Caching, url: string)
    | Jpeg(caching: Caching, bytes: Bytes)
    | ServerError(fault: ServerFault)

  /** `is_valid_url(url)`. */
  predicate IsValidUrl(url: string) {
    StartsWith(url, "http://") || StartsWith(url, "https://")
  }

  /** `notfound()`: the placeholder image unless the caller asked for none
      or named its own fallback URL, a 303 to that URL, or a bare 404. */
  function NotFoundResponse(cfg: Config, req: Request): (r: Response)
    ensures r.Placeholder? <==> cfg.defaultImage != "" && AsciiLower(req.default) != "false" && !IsValidUrl(req.default)
    ensures r.Placeholder? ==> r.path == cfg.defaultImage
    ensures r.SeeOther? <==> IsValidUrl(req.default)
    ensures r.SeeOther? ==> r.url == req.default
    ensures r.Placeholder? || r.SeeOther? || r.NotFound?
  {
    if cfg.defaultImage != "" && AsciiLower(req.default) != "false" && !IsValidUrl(req.default) then
      Placeholder(cfg.defaultImage)
    else if IsValidUrl(req.default) then SeeOther(req.default)
    else NotFound
  }

  /** Python truthiness of the value: `None`, `""` and `0` are false. */
  predicate Truthy(v: Value) {
    match v
    case Absent => false
    case Text(s) => s != ""
    case Number(n) => n != 0
  }

  /** `safeint(value) in config.blocked_covers`. */
  function Blocked(cfg: Config, v: Value): (b: bool)
    ensures v.Absent? ==> !b
    ensures v.Number? ==> (b <==> v.n in cfg.blocked)
    ensures v.Text? ==> (b <==> ParseInt(v.text).Some? && ParseInt(v.text).value in cfg.blocked)
  {
    AsInt(v).Some? && AsInt(v).value in cfg.blocked
  }

  /** `is_cover_in_cluster(value)`: the cover has moved to the archive.org
      cluster when its id is below `10000 * max_coveritem_index`. */
  function InCluster(cfg: Config, v: Value): (b: bool)
    ensures b <==> AsInt(v).Some? && AsInt(v).value < ItemSize * cfg.maxCoverItemIndex
    ensures cfg.maxCoverItemIndex <= 0 && AsInt(v).Some? && AsInt(v).value >= 0 ==> !b
  {
    match AsInt(v)
    case None => false
    case Some(id) => id < ItemSize * cfg.maxCoverItemIndex
  }

  /** `isinstance(value, int) or value.isnumeric()`. */
  function IsNumericValue(v: Value): (b: bool)
    ensures b ==> AsInt(v).Some?
    ensures b && v.Text? ==> AsInt(v).value >= 0
    ensures v.Absent? ==> !b
  {
    if v.Text? && IsNumeric(v.text) then NumericParses(v.text); true
    else v.Number?
  }

  /** The id range `[8_000_000, 8_820_000)` of `covers_0008`, whose tars were
      moved to archive.org under their local names. */
  predicate InLegacyRange(id: int) {
    8_000_000 <= id < 8_820_000
  }

  /** The id from which uploaded covers live in archive.org zips. */
  const ZipIdStart: int := 8_820_000

  /** The value after the lookup the key calls for. */
  function FromLookup(found: Option<int>): (v: Value)
    ensures found.None? <==> v.Absent?
    ensures found.Some? ==> v == Number(found.value)
  {
    if found.Some? then Number(found.value) else Absent
  }

  /** Key translation of `cover.GET` for every key but `ia`: an `id` is
      taken as written, an `isbn` is normalised and looked up, and any other
      key is looked up as it is. */
  function LookupValue(env: Env, category: string, key: string, value: string): (v: Value)
    ensures key == "id" ==> v == Text(value)
    ensures key == "isbn" ==> v == FromLookup(Query(env.olGet, env.olThings, category, key, NormalizeIsbn(value)))
    ensures key != "id" && key != "isbn" ==> v == FromLookup(Query(env.olGet, env.olThings, category, key, value))
    ensures key != "id" ==> v.Absent? || (v.Number? && v.n > 0)
  {
    if key == "isbn" then FromLookup(Query(env.olGet, env.olThings, category, key, NormalizeIsbn(value)))
    else if key == "id" then Text(value)
    else FromLookup(Query(env.olGet, env.olThings, category, key, value))
  }

  /** `cover.GET(category, key, value, size)`. */
  function CoverGet(cfg: Config, env: Env, req: Request): (r: Response)
    ensures AsciiLower(req.key) == "id" ==> r == Route(cfg, env, req, "id", Text(req.value))
    ensures AsciiLower(req.key) == "ia" ==>
      var url := env.iaCoverUrl(req.value, req.size);
      r == if url.Some? && url.value != "" then Found(url.value) else Route(cfg, env, req, "ia", Absent)
    ensures AsciiLower(req.key) != "ia" ==>
      r == Route(cfg, env, req, AsciiLower(req.key), LookupValue(env, req.category, AsciiLower(req.key), req.value))
  {
    var key := AsciiLower(req.key);
    if key == "ia" then
      var url := env.iaCoverUrl(req.value, req.size);
      if url.Some? && url.value != "" then Found(url.value) else Route(cfg, env, req, key, Absent)
    else Route(cfg, env, req, key, LookupValue(env, req.category, key, req.value))
  }

  /** Everything after key translation, in the order the handler checks it:
      empty or blocked, the cluster redirect (large and original only), the
      legacy tar redirect, then the detail record. */
  function Route(cfg: Config, env: Env, req: Request, key: string, v: Value): (r: Response)
    ensures !Truthy(v) || Blocked(cfg, v) ==> r == NotFoundResponse(cfg, req)
    ensures Truthy(v) && !Blocked(cfg, v) && ClusterBound(cfg, req, v) ==>
      r == Found(ZipviewUrl(req.protocol, AsInt(v).value, req.size))
    ensures (Truthy(v) && !Blocked(cfg, v) && !ClusterBound(cfg, req, v)
             && IsNumericValue(v) && InLegacyRange(NumericValue(v)))
      ==> r == Found(LegacyTarUrl(req.protocol, NumericValue(v), req.size))
    ensures r.Found? ==>
      (Truthy(v) && !Blocked(cfg, v)
       && (ClusterBound(cfg, req, v) || (IsNumericValue(v) && InLegacyRange(NumericValue(v)))))
    ensures (Truthy(v) && !Blocked(cfg, v) && !ClusterBound(cfg, req, v)
             && !(IsNumericValue(v) && InLegacyRange(NumericValue(v)))) ==>
      var details := GetDetails(env.indexFiles, env.db, v, req.size);
      && (details.Failure? ==> r == ServerError(BadIndex(details.error)))
      && (details == Success(None) ==> r == NotFoundResponse(cfg, req))
      && (details.Success? && details.value.Some? ==> r == Deliver(env, req, key, details.value.value))
    ensures r.ServerError? && r.fault.BadIndex? ==> GetDetails(env.indexFiles, env.db, v, req.size).Failure?
  {
    if !Truthy(v) || Blocked(cfg, v) then NotFoundResponse(cfg, req)
    else if ClusterBound(cfg, req, v) then
      Found(ZipviewUrl(req.protocol, AsInt(v).value, req.size))
    else if IsNumericValue(v) && InLegacyRange(NumericValue(v)) then
      Found(LegacyTarUrl(req.protocol, NumericValue(v), req.size))
    else
      match GetDetails(env.indexFiles, env.db, v, req.size)
      case Failure(e) => ServerError(BadIndex(e))
      case Success(None) => NotFoundResponse(cfg, req)
      case Success(Some(d)) => Deliver(env, req, key, d)
  }

  /** `size in ("L", "") and self.is_cover_in_cluster(value)`. */
  predicate ClusterBound(cfg: Config, req: Request, v: Value) {
    (req.size.Large? || req.size.Original?) && InCluster(cfg, v)
  }

  /** `int(value)` of a numeric value. */
  function NumericValue(v: Value): (n: int)
    requires IsNumericValue(v)
    ensures AsInt(v) == Some(n)
  {
    match v
    case Number(n) => n
    case Text(s) =>
      NumericParses(s);
      ParseDigits(s)
  }

  /** The caching headers of a delivered cover: keyed by id, an etag
      `<id>-<size>` and a hundred-year expiry; otherwise ten minutes. */
  function CachingFor(key: string, id: int, size: SizeClass): (c: Caching)
    ensures key == "id" <==> c.etag.Some?
    ensures c.expiresIn == (if key == "id" then ForeverSeconds else BriefSeconds)
    ensures key == "id" ==> c.etag.value == FormatInt(id) + "-" + size.Lower()
  {
    if key == "id" then Caching(Some(FormatInt(id) + "-" + size.Lower()), ForeverSeconds)
    else Caching(None, BriefSeconds)
  }

  /** `d.id >= 8_820_000 and d.uploaded` reaches `'.zip' in d.filename`,
      which raises for a record without a file name. */
  function ZipTestRaises(d: Details): (b: bool)
    ensures b ==> d.id >= ZipIdStart && d.uploaded
    ensures b ==> FilenameKey(Original) !in d.files
  {
    d.id >= ZipIdStart && d.uploaded && "filename" !in d.files
  }

  /** `d.id >= 8_820_000 and d.uploaded and '.zip' in d.filename`. */
  function ArchiveZip(d: Details): (b: bool)
    ensures b ==> !ZipTestRaises(d)
    ensures d.id >= ZipIdStart && d.uploaded && !ZipTestRaises(d) ==>
      (b <==> Contains(d.files[FilenameKey(Original)], ".zip"))
    ensures d.id < ZipIdStart || !d.uploaded ==> !b
  {
    d.id >= ZipIdStart && d.uploaded && "filename" in d.files && Contains(d.files["filename"], ".zip")
  }

  /** Serving a found record: a 304 when the client's copy is current
      (requests by id only), a redirect into an archive.org zip for uploaded
      covers, otherwise the image read from disk. */
  function Deliver(env: Env, req: Request, key: string, d: Details): (r: Response)
    ensures r.NotModified? <==> key == "id" && !env.modified(TrimMicrosecond(d.created), FormatInt(d.id) + "-" + req.size.Lower())
    ensures r.ServerError? <==> !r.NotModified? && ZipTestRaises(d)
    ensures r.ServerError? ==> r.fault == NoFilename
    ensures r.ArchiveFound? <==> !r.NotModified? && ArchiveZip(d)
    ensures r.ArchiveFound? ==> r.url == env.archiveCoverUrl(d.id, req.size, req.protocol)
    ensures r.Jpeg? <==> !r.NotModified? && !ZipTestRaises(d) && !ArchiveZip(d) && env.readImage(d, req.size).Some?
    ensures r.Jpeg? ==> r.bytes == env.readImage(d, req.size).value
    ensures r.ArchiveFound? || r.Jpeg? ==> r.caching == CachingFor(key, d.id, req.size)
    ensures r.NotModified? || r.ServerError? || r.ArchiveFound? || r.Jpeg? || r.NotFound?
  {
    var caching := CachingFor(key, d.id, req.size);
    if key == "id" && !env.modified(TrimMicrosecond(d.created), caching.etag.value) then NotModified
    else if ZipTestRaises(d) then ServerError(NoFilename)
    else if ArchiveZip(d) then ArchiveFound(caching, env.archiveCoverUrl(d.id, req.size, req.protocol))
    else
      match env.readImage(d, req.size)
      case Some(bytes) => Jpeg(caching, bytes)
      case None => NotFound
  }

  /** The cluster setting matters only to large and original images: for
      small and medium ones the answer is the same whatever
      `max_coveritem_index` says. */
  lemma ClusterOnlyLargeOrOriginal(cfg: Config, maxIndex: int, env: Env, req: Request, key: string, v: Value)
    requires req.size.Small? || req.size.Medium?
    ensures Route(cfg, env, req, key, v) == Route(cfg.(maxCoverItemIndex := maxIndex), env, req, key, v)
  {
    var other := cfg.(maxCoverItemIndex := maxIndex);
    assert !ClusterBound(cfg, req, v) && !ClusterBound(other, req, v);
    assert NotFoundResponse(cfg, req) == NotFoundResponse(other, req);
  }

  /** Raising `max_coveritem_index` only adds covers to the cluster: a cover
      that has moved stays moved. */
  lemma ClusterGrows(cfg: Config, maxIndex: int, v: Value)
    requires cfg.maxCoverItemIndex <= maxIndex
    ensures InCluster(cfg, v) ==> InCluster(cfg.(maxCoverItemIndex := maxIndex), v)
  {
  }

  /** The cluster holds a prefix of the ids: with an id, every smaller id is
      in it as well, and the first id outside is `10000 * max_coveritem_index`. */
  lemma ClusterIsPrefix(cfg: Config, a: int, b: int)
    requires a <= b
    ensures InCluster(cfg, Number(b)) ==> InCluster(cfg, Number(a))
    ensures !InCluster(cfg, Number(ItemSize * cfg.maxCoverItemIndex))
    ensures cfg.maxCoverItemIndex > 0 ==> InCluster(cfg, Number(ItemSize * cfg.maxCoverItemIndex - 1))
  {
  }

  /** The not-found answer depends only on the configured placeholder and
      the `default` parameter, never on which cover was asked for. */
  lemma NotFoundIgnoresCover(cfg: Config, req: Request, category: string, key: string, value: string, size: SizeClass)
    ensures NotFoundResponse(cfg, req) == NotFoundResponse(cfg, req.(category := category, key := key, value := value, size := size))
  {
  }

  /** `?default=false`, in any case, turns the placeholder off: the answer is
      a bare 404 whatever is configured. */
  lemma DefaultFalseIsBare404(cfg: Config, req: Request)
    requires AsciiLower(req.default) == "false"
    ensures NotFoundResponse(cfg, req) == NotFound
  {
    assert |req.default| == 5;
  }

  /** A blocked cover leaks nothing: its answer does not depend on what the
      stores hold, and it is the answer for a request whose lookup found no
      cover. */
  lemma BlockedLeaksNothing(cfg: Config, env1: Env, env2: Env, req: Request, key: string, v: Value)
    requires Blocked(cfg, v)
    ensures Route(cfg, env1, req, key, v) == Route(cfg, env2, req, key, v)
    ensures Route(cfg, env1, req, key, v) == Route(cfg, env1, req, key, Absent)
  {
  }

  /** A cover served from a tar index is never redirected into a zip: its id
      is below six million. */
  lemma TarEntryIsNeverZipped(id: int, size: SizeClass, path: string)
    requires id < TarIdLimit
    ensures !ArchiveZip(TarEntry(id, size, path)) && !ZipTestRaises(TarEntry(id, size, path))
  {
  }

  /** The etag names the cover and the size: two requests share an etag
      exactly when they ask for the same size of the same cover. */
  lemma EtagIdentifiesCover(a: int, sa: SizeClass, b: int, sb: SizeClass)
    ensures CachingFor("id", a, sa).etag == CachingFor("id", b, sb).etag <==> a == b && sa == sb
  {
    var ea, eb := FormatInt(a) + "-" + sa.Lower(), FormatInt(b) + "-" + sb.Lower();
    if ea == eb {
      var la, lb := sa.Lower(), sb.Lower();
      assert ea[|ea| - 1] == eb[|eb| - 1];
      if sa.Original? {
        assert ea[|ea| - 1] == '-';
        assert sb.Original?;
      } else {
        assert ea[|ea| - 1] == la[0];
        assert !sb.Original?;
      }
      assert sa == sb;
      assert FormatInt(a) == ea[..|FormatInt(a)|];
      assert |FormatInt(a)| == |FormatInt(b)|;
      assert FormatInt(a) == FormatInt(b);
      FormatPaddedParses(a, 0);
      FormatPaddedParses(b, 0);
    }
  }

  /** The route normalises an ISBN before the lookup normalises it again;
      the second pass changes nothing, so an ISBN request is answered as if
      its value went to the lookup untouched. */
  lemma IsbnNormalisedOnce(cfg: Config, env: Env, req: Request)
    requires AsciiLower(req.key) == "isbn"
    ensures CoverGet(cfg, env, req)
      == Route(cfg, env, req, "isbn", FromLookup(Query(env.olGet, env.olThings, req.category, "isbn", req.value)))
  {
    IsbnHyphensIgnored(env.olGet, env.olThings, req.value);
  }

  /** The legacy redirect spelled out for cover 8 500 000: the padded id
      `0008500000` names item `covers_0008` and tar `covers_0008_50`. */
  lemma LegacyRedirectExample(cfg: Config, env: Env, req: Request)
    requires req.size.Original? && cfg.maxCoverItemIndex <= 0 && 8_500_000 !in cfg.blocked
    ensures Route(cfg, env, req, "id", Text("8500000"))
      == Found(req.protocol + "://archive.org/download/" + "covers_0008" + "/" + "covers_0008_50.tar" + "/" + "0008500000" + ".jpg")
  {
    var v := Text("8500000");
    ExampleIdParses();
    assert AsInt(v) == Some(8_500_000);
    assert Truthy(v) && !Blocked(cfg, v);
    assert !ClusterBound(cfg, req, v);
    assert IsNumericValue(v) && NumericValue(v) == 8_500_000 && InLegacyRange(8_500_000);
    assert Route(cfg, env, req, "id", v) == Found(LegacyTarUrl(req.protocol, 8_500_000, req.size));
    LegacyUrlExample(req.protocol);
  }

  lemma ExampleIdParses()
    ensures AsInt(Text("8500000")) == Some(8_500_000) && IsNumeric("8500000")
  {
    ExampleDigits();
    NumericParses("8500000");
  }

  lemma ExampleDigits()
    ensures Digits(8_500_000) == "8500000"
  {
    assert Digits(8) == "8";
    assert Digits(85) == "85";
    assert Digits(850) == "850";
    assert Digits(8500) == "8500";
    assert Digits(85000) == "85000";
    assert Digits(850000) == "850000";
  }

  lemma ExamplePadded()
    ensures FormatPadded(8_500_000, 10) == "0008500000"
  {
    ExampleDigits();
    assert Zeros(3) == "000";
  }

  /** The legacy URL of an original image in terms of its padded id. */
  lemma LegacyUrlOfPadded(protocol: string, id: int, pid: string)
    requires FormatPadded(id, 10) == pid
    ensures LegacyTarUrl(protocol, id, Original)
      == protocol + "://archive.org/download/" + ("covers_" + pid[..4]) + "/"
         + ("covers_" + pid[..4] + "_" + pid[4..6] + ".tar") + "/" + pid + ".jpg"
  {
    assert "" + "covers_" + pid[..4] == "covers_" + pid[..4];
    assert "" + "covers_" + pid[..4] + "_" + pid[4..6] + ".tar" == "covers_" + pid[..4] + "_" + pid[4..6] + ".tar";
    assert pid + "" == pid;
  }

  lemma LegacyUrlExample(protocol: string)
    ensures LegacyTarUrl(protocol, 8_500_000, Original)
      == protocol + "://archive.org/download/" + "covers_0008" + "/" + "covers_0008_50.tar" + "/" + "0008500000" + ".jpg"
  {
    var pid := "0008500000";
    ExamplePadded();
    LegacyUrlOfPadded(protocol, 8_500_000, pid);
    assert pid[..4] == "0008" && pid[4..6] == "50";
    assert "covers_" + pid[..4] == "covers_0008";
    assert "covers_" + pid[..4] + "_" + pid[4..6] + ".tar" == "covers_0008_50.tar";
  }

  /** End to end through the tar fast path: a request by id for a cover below
      six million whose shard index lists it, and which neither the block
      list nor the cluster claims, is served from the tar entry the index
      names. */
  lemma TarIndexedRequest(cfg: Config, env: Env, req: Request, id: int, earlier: seq<string>, offset: int, length: int)
    requires AsciiLower(req.key) == "id" && req.value == FormatInt(id)
    requires 0 <= id < TarIdLimit && id !in cfg.blocked
    requires !((req.size.Large? || req.size.Original?) && id < ItemSize * cfg.maxCoverItemIndex)
    requires 0 <= offset <= MaxUnsignedLong && 0 < length <= MaxUnsignedLong
    requires ParseTarIndex(earlier).Success?
    requires TarIndexPath(ShardOf(id), req.size) in env.indexFiles
    requires env.indexFiles[TarIndexPath(ShardOf(id), req.size)] == earlier + [IndexLine(id, offset, length)]
    ensures CoverGet(cfg, env, req)
      == Deliver(env, req, "id", TarEntry(id, req.size, TarFileName(id, req.size, offset, length)))
  {
    var v := Text(FormatInt(id));
    TextIdParses(id);
    assert CoverGet(cfg, env, req) == Route(cfg, env, req, "id", v);
    var path := TarFileName(id, req.size, offset, length);
    IndexedCoverIsFound(env.indexFiles, id, req.size, earlier, offset, length);
    TarHitSkipsDatabase(env.indexFiles, env.db, env.db, v, req.size, path);
    RouteReachesDetails(cfg, env, req, v, id);
  }

  /** End to end through a broken shard index: a request by id for a cover
      below six million, which neither the block list nor the cluster
      claims, whose shard index holds a malformed line after well-formed
      ones, is a server error naming that line and its fault. Nothing
      between `parse_tarindex` and `cover.GET` catches the exception. */
  lemma MalformedIndexIsServerError(cfg: Config, env: Env, req: Request, id: int,
                                    earlier: seq<string>, bad: string, later: seq<string>)
    requires AsciiLower(req.key) == "id" && req.value == FormatInt(id)
    requires 0 <= id < TarIdLimit && id !in cfg.blocked
    requires !((req.size.Large? || req.size.Original?) && id < ItemSize * cfg.maxCoverItemIndex)
    requires ParseTarIndex(earlier).Success? && ParseLine(bad).Failure?
    requires TarIndexPath(ShardOf(id), req.size) in env.indexFiles
    requires env.indexFiles[TarIndexPath(ShardOf(id), req.size)] == earlier + [bad] + later
    ensures CoverGet(cfg, env, req) == ServerError(BadIndex(MalformedLine(|earlier|, ParseLine(bad).error)))
  {
    var v := Text(FormatInt(id));
    TextIdParses(id);
    assert CoverGet(cfg, env, req) == Route(cfg, env, req, "id", v);
    FirstBadLineReported(earlier, bad, later);
    BrokenIndexFailsDetails(env.indexFiles, env.db, v, req.size);
    RouteReportsIndexFault(cfg, env, req, v, id);
  }

  /** A truthy, unblocked id below six million outside the cluster whose
      detail lookup fails is answered with that failure as a server error. */
  lemma RouteReportsIndexFault(cfg: Config, env: Env, req: Request, v: Value, id: int)
    requires AsInt(v) == Some(id) && Truthy(v)
    requires 0 <= id < TarIdLimit && id !in cfg.blocked
    requires !((req.size.Large? || req.size.Original?) && id < ItemSize * cfg.maxCoverItemIndex)
    requires GetDetails(env.indexFiles, env.db, v, req.size).Failure?
    ensures Route(cfg, env, req, "id", v) == ServerError(BadIndex(GetDetails(env.indexFiles, env.db, v, req.size).error))
  {
    assert !Blocked(cfg, v) && !ClusterBound(cfg, req, v);
    assert IsNumericValue(v) ==> NumericValue(v) == id && !InLegacyRange(id);
  }

  /** The decimal spelling of an id is a truthy value that converts back to
      the id. */
  lemma TextIdParses(id: int)
    ensures AsInt(Text(FormatInt(id))) == Some(id)
    ensures Truthy(Text(FormatInt(id)))
  {
    FormatPaddedParses(id, 0);
  }

  /** A truthy, unblocked id below six million outside the cluster passes
      every guard of the route and is answered from its detail record. */
  lemma RouteReachesDetails(cfg: Config, env: Env, req: Request, v: Value, id: int)
    requires AsInt(v) == Some(id) && Truthy(v)
    requires 0 <= id < TarIdLimit && id !in cfg.blocked
    requires !((req.size.Large? || req.size.Original?) && id < ItemSize * cfg.maxCoverItemIndex)
    requires GetDetails(env.indexFiles, env.db, v, req.size).Success?
    requires GetDetails(env.indexFiles, env.db, v, req.size).value.Some?
    ensures Route(cfg, env, req, "id", v)
      == Deliver(env, req, "id", GetDetails(env.indexFiles, env.db, v, req.size).value.value)
  {
    assert !Blocked(cfg, v) && !ClusterBound(cfg, req, v);
    assert IsNumericValue(v) ==> NumericValue(v) == id && !InLegacyRange(id);
  }
}

=== FILE: paren_strip.dfy ===
/** The parenthetical-block remover of `split_amazon_title`: one pass of
    `re.sub(r'\(([^\)\(]*|[^\(]*\([^\)]*\)[^\)]*)\)', '', title)`, which
    deletes a block with no parentheses inside it or with one nested pair. */
module ParenStrip {
  import opened Wrappers

  predicate IsParen(c: char) {
    c == '(' || c == ')'
  }

  predicate ParenFree(s: string) {
    forall j :: 0 <= j < |s| ==> !IsParen(s[j])
  }

  /** The position of the first parenthesis of `s` at or after `i`. */
  function FirstParen(s: string, i: nat): (k: Option<nat>)
    requires i <= |s|
    ensures k.Some? ==> i <= k.value < |s| && IsParen(s[k.value])
    decreases |s| - i
  {
    if i == |s| then None
    else if IsParen(s[i]) then Some(i)
    else FirstParen(s, i + 1)
  }

  /** The position of the first `)` of `s` at or after `i`. */
  function FirstClose(s: string, i: nat): (k: Option<nat>)
    requires i <= |s|
    ensures k.Some? ==> i <= k.value < |s| && s[k.value] == ')'
    decreases |s| - i
  {
    if i == |s| then None
    else if s[i] == ')' then Some(i)
    else FirstClose(s, i + 1)
  }

  /** Where a match of the block pattern that starts at the `(` in front of
      `s` ends (exclusively), if one does. The first alternative, a run free
      of parentheses, is tried first and matches when the next parenthesis
      closes; otherwise the second needs an inner `(`, the first `)` after it,
      and one more `)`. No run can be shortened by backtracking into a match,
      so each alternative has at most one way to match. */
  function MatchEnd(s: string): (e: Option<nat>)
    requires |s| > 0 && s[0] == '('
    ensures e.Some? ==> 2 <= e.value <= |s| && s[e.value - 1] == ')'
  {
    var p := FirstParen(s, 1);
    if p.None? then None
    else if s[p.value] == ')' then Some(p.value + 1)
    else
      var q := FirstClose(s, p.value + 1);
      if q.None? then None
      else
        var r := FirstClose(s, q.value + 1);
        if r.None? then None else Some(r.value + 1)
  }

  /** The `re.sub` pass: scanning left to right, every match is deleted and
      scanning resumes after it; any other character is kept. */
  function StripParens(s: string): (r: string)
    ensures |r| <= |s|
    decreases |s|
  {
    if |s| == 0 then ""
    else if s[0] == '(' && MatchEnd(s).Some? then StripParens(s[MatchEnd(s).value..])
    else [s[0]] + StripParens(s[1..])
  }

  /** A title lacking either parenthesis is left as it is: every match
      starts with a `(` and ends with a `)`. */
  lemma {:induction false} UnmatchedUnchanged(s: string)
    requires '(' !in s || ')' !in s
    ensures StripParens(s) == s
    decreases |s|
  {
    if |s| > 0 {
      UnmatchedUnchanged(s[1..]);
      assert s == [s[0]] + s[1..];
    }
  }

  /** Text before the first `(` passes through untouched. */
  lemma {:induction false} KeepsPrefix(pre: string, rest: string)
    requires '(' !in pre
    ensures StripParens(pre + rest) == pre + StripParens(rest)
    decreases |pre|
  {
    if |pre| > 0 {
      var s := pre + rest;
      assert s[0] == pre[0];
      assert s[1..] == pre[1..] + rest;
      KeepsPrefix(pre[1..], rest);
      assert pre == [pre[0]] + pre[1..];
    } else {
      assert pre + rest == rest;
    }
  }

  /** A parenthesis-free run is skipped by the search for a parenthesis. */
  lemma {:induction false} SkipToParen(s: string, i: nat, j: nat)
    requires i <= j < |s| && IsParen(s[j])
    requires forall m :: i <= m < j ==> !IsParen(s[m])
    ensures FirstParen(s, i) == Some(j)
    decreases j - i
  {
    if i < j {
      SkipToParen(s, i + 1, j);
    }
  }

  /** A run without `)` is skipped by the search for one. */
  lemma {:induction false} SkipToClose(s: string, i: nat, j: nat)
    requires i <= j < |s| && s[j] == ')'
    requires forall m :: i <= m < j ==> s[m] != ')'
    ensures FirstClose(s, i) == Some(j)
    decreases j - i
  {
    if i < j {
      SkipToClose(s, i + 1, j);
    }
  }

  /** A match at the head of the text is deleted and scanning resumes
      after it. */
  lemma MatchedBlockStrips(block: string, n: nat)
    requires |block| > 0 && block[0] == '(' && MatchEnd(block) == Some(n)
    ensures StripParens(block) == StripParens(block[n..])
  {
  }

  /** A block with no parentheses inside is removed whole. */
  lemma SimpleBlockRemoved(pre: string, inner: string, post: string)
    requires '(' !in pre && ParenFree(inner)
    ensures StripParens(pre + "(" + inner + ")" + post) == pre + StripParens(post)
  {
    var block := SimpleBlock(pre, inner, post);
    KeepsPrefix(pre, block);
  }

  /** The block `(inner)` with what follows it, which strips to what the
      text after the block strips to. */
  lemma SimpleBlock(pre: string, inner: string, post: string) returns (block: string)
    requires ParenFree(inner)
    ensures pre + "(" + inner + ")" + post == pre + block
    ensures StripParens(block) == StripParens(post)
  {
    var n;
    block, n := SimpleMatch(pre, inner, post);
    MatchedBlockStrips(block, n);
  }

  /** The first alternative matches a block `(inner)` whole. */
  lemma SimpleMatch(pre: string, inner: string, post: string) returns (block: string, n: nat)
    requires ParenFree(inner)
    ensures pre + "(" + inner + ")" + post == pre + block
    ensures |block| > 0 && block[0] == '(' && MatchEnd(block) == Some(n)
    ensures n <= |block| && block[n..] == post
  {
    block := "(" + inner + ")" + post;
    n := |inner| + 2;
    assert forall m :: 1 <= m < |inner| + 1 ==> block[m] == inner[m - 1];
    SkipToParen(block, 1, |inner| + 1);
    assert block[n..] == post;
    assert pre + "(" + inner + ")" + post == pre + block;
  }

  /** A block holding one nested pair, `(a(b)c)`, is removed whole. */
  lemma NestedBlockRemoved(pre: string, a: string, b: string, c: string, post: string)
    requires '(' !in pre && ParenFree(a) && ParenFree(b) && ParenFree(c)
    ensures StripParens(pre + "(" + a + "(" + b + ")" + c + ")" + post) == pre + StripParens(post)
  {
    var block := NestedBlock(pre, a, b, c, post);
    KeepsPrefix(pre, block);
  }

  /** The nested block `(a(b)c)` with what follows it, which strips to what
      the text after the block strips to. */
  lemma NestedBlock(pre: string, a: string, b: string, c: string, post: string) returns (block: string)
    requires ParenFree(a) && ParenFree(b) && ParenFree(c)
    ensures pre + "(" + a + "(" + b + ")" + c + ")" + post == pre + block
    ensures StripParens(block) == StripParens(post)
  {
    var n;
    block, n := NestedMatch(pre, a, b, c, post);
    MatchedBlockStrips(block, n);
  }

  /** The second alternative matches a nested block `(a(b)c)` whole. */
  lemma NestedMatch(pre: string, a: string, b: string, c: string, post: string) returns (block: string, n: nat)
    requires ParenFree(a) && ParenFree(b) && ParenFree(c)
    ensures pre + "(" + a + "(" + b + ")" + c + ")" + post == pre + block
    ensures |block| > 0 && block[0] == '(' && MatchEnd(block) == Some(n)
    ensures n <= |block| && block[n..] == post
  {
    block := "(" + a + "(" + b + ")" + c + ")" + post;
    var i, j, k := |a| + 1, |a| + 2 + |b|, |a| + 3 + |b| + |c|;
    n := k + 1;
    NestedChars(block, a, b, c, post);
    SkipToParen(block, 1, i);
    SkipToClose(block, i + 1, j);
    SkipToClose(block, j + 1, k);
    Regroup(pre, a, b, c, post);
  }

  /** Where the parts of a nested block `(a(b)c)post` sit. */
  lemma NestedChars(block: string, a: string, b: string, c: string, post: string)
    requires ParenFree(a) && ParenFree(b) && ParenFree(c)
    requires block == "(" + a + "(" + b + ")" + c + ")" + post
    ensures var i, j, k := |a| + 1, |a| + 2 + |b|, |a| + 3 + |b| + |c|;
      && k < |block| && block[0] == '(' && block[i] == '(' && block[j] == ')' && block[k] == ')'
      && (forall m :: 1 <= m < i ==> !IsParen(block[m]))
      && (forall m :: i + 1 <= m < j ==> block[m] != ')')
      && (forall m :: j + 1 <= m < k ==> block[m] != ')')
      && block[k + 1..] == post
  {
    var i, j, k := |a| + 1, |a| + 2 + |b|, |a| + 3 + |b| + |c|;
    assert forall m :: 1 <= m < i ==> block[m] == a[m - 1];
    assert forall m :: i + 1 <= m < j ==> block[m] == b[m - i - 1];
    assert forall m :: j + 1 <= m < k ==> block[m] == c[m - j - 1];
  }

  lemma Regroup(pre: string, a: string, b: string, c: string, post: string)
    ensures pre + "(" + a + "(" + b + ")" + c + ")" + post
      == pre + ("(" + a + "(" + b + ")" + c + ")" + post)
  {
  }
}

=== FILE: pyint.dfy ===
/** Python's integer <-> text conversions as the cover store uses them:
    `"%d" % n`, `"%06d" % n`, `"%010d" % n`, `f"{n}"` and `int(text)`. */
module PyInt {
  import opened Wrappers
  import opened PyText

  function DigitValue(c: char): nat
    requires IsDigit(c)
  {
    c as int - '0' as int
  }

  function DigitChar(d: nat): (c: char)
    requires d < 10
    ensures IsDigit(c) && DigitValue(c) == d
  {
    ('0' as int + d) as char
  }

  /** The value of a run of ASCII digits, most significant digit first. */
  function ParseDigits(s: string): nat
    requires AllDigits(s)
  {
    if |s| == 0 then 0 else 10 * ParseDigits(s[..|s| - 1]) + DigitValue(s[|s| - 1])
  }

  /** The shortest decimal spelling of a natural number; reading it back
      gives the number. */
  function Digits(n: nat): (s: string)
    ensures 1 <= |s|
    ensures AllDigits(s)
    ensures ParseDigits(s) == n
  {
    if n < 10 then [DigitChar(n)]
    else
      var s := Digits(n / 10) + [DigitChar(n % 10)];
      assert s[..|s| - 1] == Digits(n / 10);
      s
  }

  function Zeros(k: nat): (z: string)
    ensures |z| == k && AllDigits(z)
  {
    seq(k, _ => '0')
  }

  /** Left-pad with '0' up to `width` characters. */
  function ZeroPad(s: string, width: nat): string
  {
    if |s| < width then Zeros(width - |s|) + s else s
  }

  /** `"%0<width>d" % n`: the sign counts towards the width, and a number too
      wide for the field is never cut. */
  function FormatPadded(n: int, width: nat): (s: string)
    ensures |s| >= width && |s| >= 1
    ensures n >= 0 <==> AllDigits(s)
    ensures n < 0 <==> s[0] == '-'
  {
    if n >= 0 then ZeroPad(Digits(n), width)
    else
      var s := "-" + ZeroPad(Digits(-n), if width > 0 then width - 1 else 0);
      assert !IsDigit(s[0]);
      s
  }

  /** `"%d" % n` and `f"{n}"`. */
  function FormatInt(n: int): string
  {
    FormatPadded(n, 0)
  }

  /** The digit part Python's `int()` accepts: digits, with single
      underscores allowed between two digits. */
  predicate DigitGroups(s: string) {
    && |s| > 0 && IsDigit(s[0]) && IsDigit(s[|s| - 1])
    && (forall i :: 0 <= i < |s| ==> IsDigit(s[i]) || s[i] == '_')
    && !Contains(s, "__")
  }

  function DropUnderscores(s: string): (r: string)
    requires forall i :: 0 <= i < |s| ==> IsDigit(s[i]) || s[i] == '_'
    ensures AllDigits(r)
  {
    if |s| == 0 then ""
    else (if s[0] == '_' then "" else [s[0]]) + DropUnderscores(s[1..])
  }

  lemma {:induction false} DropUnderscoresOfDigits(s: string)
    requires AllDigits(s)
    ensures DropUnderscores(s) == s
  {
    if |s| > 0 {
      DropUnderscoresOfDigits(s[1..]);
      assert s == [s[0]] + s[1..];
    }
  }

  /** Python's `int(text)` on a `str`: surrounding whitespace is ignored, an
      optional sign, then decimal digit groups; anything else is the
      `ValueError` branch, here `None`. */
  function ParseInt(text: string): (r: Option<int>)
    ensures Strip(text) == "" ==> r.None?
    ensures r.Some? && r.value < 0 ==> Strip(text)[0] == '-'
  {
    ParseStripped(Strip(text))
  }

  /** `int()` once surrounding whitespace is gone. */
  function ParseStripped(t: string): (r: Option<int>)
    ensures t == "" ==> r.None?
    ensures r.Some? && r.value < 0 ==> t[0] == '-'
  {
    if |t| > 0 && (t[0] == '+' || t[0] == '-') then
      var body := t[1..];
      if DigitGroups(body) then
        var v: int := ParseDigits(DropUnderscores(body));
        Some(if t[0] == '-' then -v else v)
      else None
    else if DigitGroups(t) then Some(ParseDigits(DropUnderscores(t)))
    else None
  }

  lemma {:induction false} ParseDigitsZeros(k: nat, d: string)
    requires AllDigits(d)
    ensures ParseDigits(Zeros(k) + d) == ParseDigits(d)
    decreases |d|, k
  {
    var s := Zeros(k) + d;
    if |d| == 0 {
      assert s == Zeros(k);
      if k > 0 {
        assert s[..|s| - 1] == Zeros(k - 1);
        ParseDigitsZeros(k - 1, "");
        assert Zeros(k - 1) + "" == Zeros(k - 1);
      }
    } else {
      assert s[..|s| - 1] == Zeros(k) + d[..|d| - 1];
      ParseDigitsZeros(k, d[..|d| - 1]);
    }
  }

  lemma {:induction false} DigitsHaveNoDoubleUnderscore(s: string)
    requires AllDigits(s)
    ensures !Contains(s, "__")
  {
    if |s| > 0 {
      assert !StartsWith(s, "__") by {
        if |s| >= 2 {
          assert s[..2][0] == s[0];
        }
      }
      DigitsHaveNoDoubleUnderscore(s[1..]);
    }
  }

  lemma UnsignedParses(s: string)
    requires IsNumeric(s)
    ensures ParseStripped(s) == Some(ParseDigits(s))
  {
    DropUnderscoresOfDigits(s);
    DigitsHaveNoDoubleUnderscore(s);
    assert DigitGroups(s);
    assert IsDigit(s[0]);
  }

  /** `str.isnumeric()` implies `int()` succeeds, with the value of the
      digits (on the ASCII digits). */
  lemma NumericParses(s: string)
    requires IsNumeric(s)
    ensures ParseInt(s) == Some(ParseDigits(s))
  {
    StripCanonical(s);
    UnsignedParses(s);
  }

  /** The zero padding of `"%0<w>d"` does not change the value read back. */
  lemma PaddedValue(n: nat, width: nat)
    ensures ParseDigits(ZeroPad(Digits(n), width)) == n
  {
    var d := Digits(n);
    if |d| < width {
      assert ZeroPad(d, width) == Zeros(width - |d|) + d;
      ParseDigitsZeros(width - |d|, d);
    } else {
      assert ZeroPad(d, width) == d;
    }
  }

  lemma SignedParses(body: string)
    requires IsNumeric(body)
    ensures ParseStripped("-" + body) == Some(-(ParseDigits(body) as int))
  {
    assert ("-" + body)[1..] == body;
    DropUnderscoresOfDigits(body);
    DigitsHaveNoDoubleUnderscore(body);
    assert DigitGroups(body);
  }

  lemma NegativeParses(body: string)
    requires IsNumeric(body)
    ensures ParseInt("-" + body) == Some(-(ParseDigits(body) as int))
  {
    var s := "-" + body;
    assert Canonical(s);
    StripCanonical(s);
    SignedParses(body);
  }

  /** Round trip: `int("%0<w>d" % n) == n` for every integer and width. */
  lemma FormatPaddedParses(n: int, width: nat)
    ensures ParseInt(FormatPadded(n, width)) == Some(n)
  {
    if n >= 0 {
      NonNegativeRoundTrip(n, width);
    } else {
      NegativeRoundTrip(n, width);
    }
  }

  lemma NonNegativeRoundTrip(n: nat, width: nat)
    ensures ParseInt(FormatPadded(n, width)) == Some(n)
  {
    var body := ZeroPad(Digits(n), width);
    assert FormatPadded(n, width) == body;
    PaddedValue(n, width);
    NumericParses(body);
  }

  lemma NegativeRoundTrip(n: int, width: nat)
    requires n < 0
    ensures ParseInt(FormatPadded(n, width)) == Some(n)
  {
    var body := NegativeShape(n, width);
    NegativeParses(body);
  }

  lemma NegativeShape(n: int, width: nat) returns (body: string)
    requires n < 0
    ensures FormatPadded(n, width) == "-" + body
    ensures IsNumeric(body) && ParseDigits(body) == -n
  {
    var w := if width > 0 then width - 1 else 0;
    body := ZeroPad(Digits(-n), w);
    PaddedValue(-n, w);
  }

  /** Padding a string that ends in `c` is padding the rest one column
      narrower, then `c`. */
  lemma ZeroPadSnoc(d: string, c: char, width: nat)
    requires width >= 1
    ensures ZeroPad(d + [c], width) == ZeroPad(d, width - 1) + [c]
  {
    if |d| + 1 < width {
      assert Zeros(width - |d| - 1) + (d + [c]) == Zeros(width - 1 - |d|) + d + [c];
    }
  }

  /** Peeling the last digit: `"%0<w>d" % n` is `"%0<w-1>d" % (n // 10)`
      followed by the units digit. */
  lemma PeelDigit(n: nat, width: nat)
    requires width >= 2 || (width >= 1 && n >= 10)
    ensures FormatPadded(n, width) == FormatPadded(n / 10, width - 1) + [DigitChar(n % 10)]
  {
    var c := DigitChar(n % 10);
    if n < 10 {
      PeelUnits(n, width);
    } else {
      var d := Digits(n / 10);
      assert Digits(n) == d + [c];
      ZeroPadSnoc(d, c, width);
    }
  }

  lemma PeelUnits(n: nat, width: nat)
    requires n < 10 && width >= 2
    ensures FormatPadded(n, width) == FormatPadded(0, width - 1) + [DigitChar(n)]
  {
    var c := DigitChar(n);
    assert Digits(n) == "" + [c];
    ZeroPadSnoc("", c, width);
    assert ZeroPad("", width - 1) == Zeros(width - 1);
    assert ZeroPad(Digits(0), width - 1) == Zeros(width - 1);
  }

  function Pow10(k: nat): (p: nat)
    ensures p >= 1
  {
    if k == 0 then 1 else 10 * Pow10(k - 1)
  }

  /** A number below `10^w` needs at most `w` digits. */
  lemma {:induction false} DigitsFit(n: nat, width: nat)
    requires width >= 1 && n < Pow10(width)
    ensures |Digits(n)| <= width
    decreases width
  {
    if n >= 10 {
      DigitsFit(n / 10, width - 1);
    }
  }

  /** `"%0<w>d"` of a number below `10^w` is exactly `w` characters long. */
  lemma PaddedLength(n: nat, width: nat)
    requires width >= 1 && n < Pow10(width)
    ensures |FormatPadded(n, width)| == width
  {
    DigitsFit(n, width);
  }
}

=== FILE: pytext.dfy ===
/** The handful of Python `str` operations the cover store and the vendor
    helpers rely on: `strip()`, `split(sep)`, `sep.join(...)`,
    `replace(old, "")`, `in`, `startswith`, ASCII case mapping and the
    character classes `isspace`, `isdigit`, `isalpha`. */
module PyText {

  /** Python's `str.isspace()` for one character: the set `str.strip()` and
      `int()` discard at either end of a string. */
  predicate IsSpace(c: char) {
    || c == ' '
    || ('\t' <= c <= '\r')
    || ('\U{1C}' <= c <= '\U{1F}')
    || c == '\U{85}' || c == '\U{A0}' || c == '\U{1680}'
    || ('\U{2000}' <= c <= '\U{200A}')
    || c == '\U{2028}' || c == '\U{2029}' || c == '\U{202F}'
    || c == '\U{205F}' || c == '\U{3000}'
  }

  predicate IsDigit(c: char) {
    '0' <= c <= '9'
  }

  predicate IsAsciiAlpha(c: char) {
    ('a' <= c <= 'z') || ('A' <= c <= 'Z')
  }

  predicate AllDigits(s: string) {
    forall i :: 0 <= i < |s| ==> IsDigit(s[i])
  }

  /** `str.isnumeric()`, restricted to ASCII digits. */
  predicate IsNumeric(s: string) {
    |s| > 0 && AllDigits(s)
  }

  /** A string that `strip()` leaves alone: empty, or not starting or ending
      with whitespace. */
  predicate Canonical(s: string) {
    |s| == 0 || (!IsSpace(s[0]) && !IsSpace(s[|s| - 1]))
  }

  predicate AllSpace(s: string) {
    forall i :: 0 <= i < |s| ==> IsSpace(s[i])
  }

  /** `str.lstrip()`: the suffix left after dropping leading whitespace. */
  function LStrip(s: string): (r: string)
    ensures |r| <= |s| && r == s[|s| - |r|..]
    ensures AllSpace(s[..|s| - |r|])
    ensures |r| > 0 ==> !IsSpace(r[0])
  {
    if |s| > 0 && IsSpace(s[0]) then LStrip(s[1..]) else s
  }

  /** `str.rstrip()`: the prefix left after dropping trailing whitespace. */
  function RStrip(s: string): (r: string)
    ensures |r| <= |s| && r == s[..|r|]
    ensures AllSpace(s[|r|..])
    ensures |r| > 0 ==> !IsSpace(r[|r| - 1])
  {
    if |s| > 0 && IsSpace(s[|s| - 1]) then RStrip(s[..|s| - 1]) else s
  }

  /** `str.strip()` with no argument. */
  function Strip(s: string): (r: string)
    ensures Canonical(r)
    ensures |r| <= |s|
  {
    var l := LStrip(s);
    var r := RStrip(l);
    assert |r| > 0 ==> r[0] == l[0];
    r
  }

  /** Whitespace on either side of a canonical string is exactly what
      `strip()` removes. */
  lemma {:induction false} StripPadded(pre: string, t: string, post: string)
    requires AllSpace(pre) && AllSpace(post) && Canonical(t)
    ensures Strip(pre + t + post) == t
  {
    if |t| == 0 {
      assert pre + t + post == pre + post;
      assert AllSpace(pre + post);
      LStripPadded(pre + post, "");
      assert pre + post + "" == pre + post;
    } else {
      assert pre + t + post == pre + (t + post);
      LStripPadded(pre, t + post);
      RStripPadded(t, post);
    }
  }

  lemma {:induction false} LStripPadded(pre: string, rest: string)
    requires AllSpace(pre)
    requires |rest| > 0 ==> !IsSpace(rest[0])
    ensures LStrip(pre + rest) == rest
    decreases |pre|
  {
    if |pre| > 0 {
      assert (pre + rest)[1..] == pre[1..] + rest;
      LStripPadded(pre[1..], rest);
    } else {
      assert pre + rest == rest;
    }
  }

  lemma {:induction false} RStripPadded(t: string, post: string)
    requires AllSpace(post)
    requires |t| > 0 && !IsSpace(t[|t| - 1])
    ensures RStrip(t + post) == t
    decreases |post|
  {
    if |post| > 0 {
      assert (t + post)[..|t + post| - 1] == t + post[..|post| - 1];
      RStripPadded(t, post[..|post| - 1]);
    } else {
      assert t + post == t;
    }
  }

  lemma {:induction false} RStripAllSpace(s: string)
    requires AllSpace(s)
    ensures RStrip(s) == ""
    decreases |s|
  {
    if |s| > 0 {
      RStripAllSpace(s[..|s| - 1]);
    }
  }

  /** `strip()` is idempotent and leaves a canonical string unchanged. */
  lemma StripCanonical(s: string)
    requires Canonical(s)
    ensures Strip(s) == s
  {
    StripPadded("", s, "");
    assert "" + s + "" == s;
  }

  /** First position of `c` in `s`. */
  function IndexOf(s: string, c: char): (i: nat)
    requires c in s
    ensures i < |s| && s[i] == c
    ensures forall j :: 0 <= j < i ==> s[j] != c
  {
    if s[0] == c then 0 else 1 + IndexOf(s[1..], c)
  }

  /** `sep.join(parts)`. */
  function Join(parts: seq<string>, sep: string): string
  {
    if |parts| == 0 then ""
    else if |parts| == 1 then parts[0]
    else parts[0] + sep + Join(parts[1..], sep)
  }

  /** `s.split(sep)` for a one-character separator: never empty, no field
      holds the separator, and joining the fields back gives `s`. */
  function Split(s: string, sep: char): (parts: seq<string>)
    ensures |parts| >= 1
    ensures forall i :: 0 <= i < |parts| ==> sep !in parts[i]
    ensures Join(parts, [sep]) == s
    decreases |s|
  {
    if sep !in s then [s]
    else
      var i := IndexOf(s, sep);
      var rest := Split(s[i + 1..], sep);
      assert ([s[..i]] + rest)[1..] == rest;
      assert s == s[..i] + [sep] + s[i + 1..];
      [s[..i]] + rest
  }

  /** The fields of `Split` are the only separator-free decomposition of a
      string: whatever was joined with the separator splits back into the
      same fields. */
  lemma {:induction false} SplitJoin(parts: seq<string>, sep: char)
    requires |parts| >= 1
    requires forall i :: 0 <= i < |parts| ==> sep !in parts[i]
    ensures Split(Join(parts, [sep]), sep) == parts
    decreases |parts|
  {
    if |parts| == 1 {
      assert Join(parts, [sep]) == parts[0];
    } else {
      var tail := parts[1..];
      assert Join(parts, [sep]) == parts[0] + [sep] + Join(tail, [sep]);
      SplitAtFirst(parts[0], sep, Join(tail, [sep]));
      SplitJoin(tail, sep);
      assert [parts[0]] + tail == parts;
    }
  }

  /** A separator splits a string into the text before it and the fields of
      the text after it. */
  lemma SplitAtFirst(a: string, sep: char, b: string)
    requires sep !in a
    ensures Split(a + [sep] + b, sep) == [a] + Split(b, sep)
  {
    var s := a + [sep] + b;
    assert s[|a|] == sep;
    var i := IndexOf(s, sep);
    assert forall k :: 0 <= k < |a| ==> s[k] == a[k];
    assert i == |a|;
    assert s[..i] == a;
    assert s[i + 1..] == b;
  }

  /** Python's `sub in s`. */
  predicate Contains(s: string, sub: string)
    decreases |s|
  {
    StartsWith(s, sub) || (|s| > 0 && Contains(s[1..], sub))
  }

  predicate StartsWith(s: string, prefix: string) {
    |prefix| <= |s| && s[..|prefix|] == prefix
  }

  /** `s.replace(pat, "")`: one left-to-right pass dropping non-overlapping
      occurrences of `pat`. */
  function RemoveAll(s: string, pat: string): (r: string)
    requires |pat| > 0
    ensures |r| <= |s|
    ensures forall c :: c in r ==> c in s
    ensures |pat| == 1 ==> pat[0] !in r
    decreases |s|
  {
    if |s| < |pat| then s
    else if s[..|pat|] == pat then RemoveAll(s[|pat|..], pat)
    else [s[0]] + RemoveAll(s[1..], pat)
  }

  /** Removing a single character leaves none of it behind and keeps every
      other character, in order. */
  lemma {:induction false} RemoveCharSpec(s: string, c: char)
    ensures c !in RemoveAll(s, [c])
    ensures RemoveAll(s, [c]) == Without(s, c)
    decreases |s|
  {
    if |s| > 0 {
      RemoveCharSpec(s[1..], c);
      assert s == [s[0]] + s[1..];
    }
  }

  /** Reference definition: the characters of `s` other than `c`. */
  function Without(s: string, c: char): string
    decreases |s|
  {
    if |s| == 0 then "" else (if s[0] == c then "" else [s[0]]) + Without(s[1..], c)
  }

  /** A pattern that does not occur is not removed. */
  lemma {:induction false} RemoveAbsent(s: string, pat: string)
    requires |pat| > 0 && !Contains(s, pat)
    ensures RemoveAll(s, pat) == s
    decreases |s|
  {
    if |s| >= |pat| {
      RemoveAbsent(s[1..], pat);
      assert s == [s[0]] + s[1..];
    }
  }

  function LowerChar(c: char): char {
    if 'A' <= c <= 'Z' then (c as int + 32) as char else c
  }

  function UpperChar(c: char): char {
    if 'a' <= c <= 'z' then (c as int - 32) as char else c
  }

  /** `str.lower()` on the ASCII letters. */
  function AsciiLower(s: string): (r: string)
    ensures |r| == |s|
    ensures forall i :: 0 <= i < |s| ==> r[i] == LowerChar(s[i])
  {
    seq(|s|, i requires 0 <= i < |s| => LowerChar(s[i]))
  }

  /** `str.upper()` on the ASCII letters. */
  function AsciiUpper(s: string): (r: string)
    ensures |r| == |s|
    ensures forall i :: 0 <= i < |s| ==> r[i] == UpperChar(s[i])
  {
    seq(|s|, i requires 0 <= i < |s| => UpperChar(s[i]))
  }

  /** Python slice `s[:n]`, which clamps at the end of the string. */
  function Take(s: string, n: nat): string
  {
    if n <= |s| then s[..n] else s
  }
}

=== FILE: tar_index.dfy ===
/** The tar-index file format of the cover store and its parser
    (`parse_tarindex`): one line per archived image,
    `<name>\t<offset>\t<size>`, where the first ten characters of the name
    are the zero-padded cover id. */
module TarIndex {
  import opened Wrappers
  import opened PyText
  import opened PyInt
  import opened CoverNames

  /** The largest value an `array('L')` element holds (an unsigned 64-bit
      C long on LP64 platforms). */
  const MaxUnsignedLong: int := 0xFFFF_FFFF_FFFF_FFFF

  /** The two parallel 10 000-slot arrays of offsets and sizes. */
  datatype Table = Table(offsets: seq<int>, sizes: seq<int>)

  predicate Valid(t: Table) {
    |t.offsets| == ItemSize && |t.sizes| == ItemSize
  }

  /** The zero-filled arrays the parser starts from. */
  function EmptyTable(): (t: Table)
    ensures Valid(t)
    ensures forall k :: 0 <= k < ItemSize ==> t.offsets[k] == 0 && t.sizes[k] == 0
  {
    Table(seq(ItemSize, _ => 0), seq(ItemSize, _ => 0))
  }

  /** One non-blank line of an index file. */
  datatype Record = Record(coverId: int, offset: int, size: int)

  /** Why a line was rejected: the wrong number of tab-separated fields
      (`ValueError` from the unpacking), a field `int()` refuses
      (`ValueError`), or a value `array('L')` cannot hold (`OverflowError`). */
  datatype LineFault = FieldCount(fields: nat) | NotAnInteger | OutOfRange

  /** The exception `parse_tarindex` raises, with the 0-based line it came from. */
  datatype IndexFault = MalformedLine(lineNo: nat, fault: LineFault)

  /** One line of the loop body of `parse_tarindex`: `None` for a blank line. */
  function ParseLine(line: string): (r: Result<Option<Record>, LineFault>)
    ensures r == Success(None) <==> Strip(line) == ""
    ensures Strip(line) != "" ==> r == ParseFields(Split(Strip(line), '\t'))
    ensures r.Success? && r.value.Some? ==>
      0 <= r.value.value.offset <= MaxUnsignedLong && 0 <= r.value.value.size <= MaxUnsignedLong
  {
    var t := Strip(line);
    if t == "" then Success(None) else ParseFields(Split(t, '\t'))
  }

  /** `name, offset, imgsize = line.split("\t")`, then the three conversions
      in source order: the id from the first ten characters of the name,
      then the offset, then the size. */
  function ParseFields(fields: seq<string>): (r: Result<Option<Record>, LineFault>)
    ensures |fields| != 3 ==> r == Failure(FieldCount(|fields|))
    ensures |fields| == 3 && ParseInt(Take(fields[0], 10)).None? ==> r == Failure(NotAnInteger)
    ensures |fields| == 3 && ParseInt(Take(fields[0], 10)).Some? ==>
      (r.Success? <==> ParseUnsigned(fields[1]).Success? && ParseUnsigned(fields[2]).Success?)
    ensures |fields| == 3 && ParseInt(Take(fields[0], 10)).Some? && ParseUnsigned(fields[1]).Failure? ==>
      r == Failure(ParseUnsigned(fields[1]).error)
    ensures |fields| == 3 && ParseInt(Take(fields[0], 10)).Some? && ParseUnsigned(fields[1]).Success?
            && ParseUnsigned(fields[2]).Failure? ==>
      r == Failure(ParseUnsigned(fields[2]).error)
    ensures r.Success? ==> r.value.Some?
    ensures r.Success? ==>
      && r.value.value.coverId == ParseInt(Take(fields[0], 10)).value
      && r.value.value.offset == ParseUnsigned(fields[1]).value
      && r.value.value.size == ParseUnsigned(fields[2]).value
    ensures r.Success? ==>
      0 <= r.value.value.offset <= MaxUnsignedLong && 0 <= r.value.value.size <= MaxUnsignedLong
  {
    if |fields| != 3 then Failure(FieldCount(|fields|))
    else
      match ParseInt(Take(fields[0], 10))
      case None => Failure(NotAnInteger)
      case Some(id) =>
        match ParseUnsigned(fields[1])
        case Failure(f) => Failure(f)
        case Success(offset) =>
          match ParseUnsigned(fields[2])
          case Failure(f) => Failure(f)
          case Success(size) => Success(Some(Record(id, offset, size)))
  }

  /** `int(field)` stored into an `array('L')` element. */
  function ParseUnsigned(field: string): (r: Result<int, LineFault>)
    ensures r.Success? <==> ParseInt(field).Some? && 0 <= ParseInt(field).value <= MaxUnsignedLong
    ensures r.Success? ==> r.value == ParseInt(field).value
    ensures ParseInt(field).None? ==> r == Failure(NotAnInteger)
    ensures ParseInt(field).Some? && !(0 <= ParseInt(field).value <= MaxUnsignedLong) ==> r == Failure(OutOfRange)
  {
    match ParseInt(field)
    case None => Failure(NotAnInteger)
    case Some(v) => if 0 <= v <= MaxUnsignedLong then Success(v) else Failure(OutOfRange)
  }

  /** `array_offset[index] = offset; array_size[index] = size` for the slot
      of the record's cover id. */
  function Store(t: Table, rec: Record): (u: Table)
    requires Valid(t)
    ensures Valid(u)
    ensures u.offsets[SlotOf(rec.coverId)] == rec.offset && u.sizes[SlotOf(rec.coverId)] == rec.size
    ensures forall k :: 0 <= k < ItemSize && k != SlotOf(rec.coverId) ==>
      u.offsets[k] == t.offsets[k] && u.sizes[k] == t.sizes[k]
  {
    var k := SlotOf(rec.coverId);
    Table(t.offsets[k := rec.offset], t.sizes[k := rec.size])
  }

  /** What one line of an index file parses to. */
  type LineResult = Result<Option<Record>, LineFault>

  /** `parse_tarindex(file)`, the file given as its lines: every line is
      parsed, then folded into the arrays first to last. */
  function ParseTarIndex(lines: seq<string>): (r: Result<Table, IndexFault>)
    ensures r.Success? ==> Valid(r.value)
    ensures r.Failure? ==> r.error.lineNo < |lines|
  {
    Load(ParsedLines(lines))
  }

  function ParsedLines(lines: seq<string>): (p: seq<LineResult>)
    ensures |p| == |lines|
    ensures forall j :: 0 <= j < |lines| ==> p[j] == ParseLine(lines[j])
  {
    seq(|lines|, j requires 0 <= j < |lines| => ParseLine(lines[j]))
  }

  /** The loop of `parse_tarindex` over already parsed lines: the first
      malformed line aborts it, a blank line is skipped, and a record is
      stored into the slot of its cover id. */
  function Load(results: seq<LineResult>): (r: Result<Table, IndexFault>)
    ensures r.Success? ==> Valid(r.value)
    ensures r.Failure? ==> r.error.lineNo < |results|
    decreases |results|
  {
    if |results| == 0 then Success(EmptyTable())
    else
      var n := |results| - 1;
      match Load(results[..n])
      case Failure(e) => Failure(e)
      case Success(t) =>
        match results[n]
        case Failure(f) => Failure(MalformedLine(n, f))
        case Success(None) => Success(t)
        case Success(Some(rec)) => Success(Store(t, rec))
  }

  lemma ParsedLinesAppend(lines: seq<string>, line: string)
    ensures ParsedLines(lines + [line]) == ParsedLines(lines) + [ParseLine(line)]
  {
    var extended := lines + [line];
    assert forall j :: 0 <= j < |lines| ==> extended[j] == lines[j];
    assert extended[|lines|] == line;
  }

  /** The fold fails exactly when some line is malformed, and then it reports
      the first such line with that line's own fault. */
  lemma {:induction false} LoadFailsAtFirstBadLine(results: seq<LineResult>)
    ensures Load(results).Success? <==> forall j :: 0 <= j < |results| ==> results[j].Success?
    ensures var r := Load(results);
      r.Failure? ==>
        && results[r.error.lineNo] == Failure(r.error.fault)
        && forall j :: 0 <= j < r.error.lineNo ==> results[j].Success?
    decreases |results|
  {
    if |results| > 0 {
      var n := |results| - 1;
      var earlier := results[..n];
      LoadFailsAtFirstBadLine(earlier);
      assert forall j :: 0 <= j < n ==> earlier[j] == results[j];
    }
  }

  /** `parse_tarindex` fails exactly when some line is malformed, and then it
      reports the first such line with that line's own fault. */
  lemma ParseFailsAtFirstBadLine(lines: seq<string>)
    ensures ParseTarIndex(lines).Success? <==> forall j :: 0 <= j < |lines| ==> ParseLine(lines[j]).Success?
    ensures var r := ParseTarIndex(lines);
      r.Failure? ==>
        && ParseLine(lines[r.error.lineNo]) == Failure(r.error.fault)
        && forall j :: 0 <= j < r.error.lineNo ==> ParseLine(lines[j]).Success?
  {
    LoadFailsAtFirstBadLine(ParsedLines(lines));
  }

  /** A malformed line after well-formed ones is the one reported, with its
      own fault, whatever follows it. */
  lemma FirstBadLineReported(earlier: seq<string>, bad: string, later: seq<string>)
    requires ParseTarIndex(earlier).Success? && ParseLine(bad).Failure?
    ensures ParseTarIndex(earlier + [bad] + later) == Failure(MalformedLine(|earlier|, ParseLine(bad).error))
  {
    var lines := earlier + [bad] + later;
    ParseFailsAtFirstBadLine(earlier);
    forall j | 0 <= j < |earlier| ensures ParseLine(lines[j]).Success? {
      assert lines[j] == earlier[j];
    }
    assert lines[|earlier|] == bad;
    FirstFailureReported(lines, |earlier|);
  }

  /** The parse of a file reports its first malformed line. */
  lemma FirstFailureReported(lines: seq<string>, n: nat)
    requires n < |lines| && ParseLine(lines[n]).Failure?
    requires forall j :: 0 <= j < n ==> ParseLine(lines[j]).Success?
    ensures ParseTarIndex(lines) == Failure(MalformedLine(n, ParseLine(lines[n]).error))
  {
    var results := ParsedLines(lines);
    assert results[n] == ParseLine(lines[n]);
    FirstFailureLoaded(results, n);
  }

  /** Folding stops at the first failed line and reports it. */
  lemma FirstFailureLoaded(results: seq<LineResult>, n: nat)
    requires n < |results| && results[n].Failure?
    requires forall j :: 0 <= j < n ==> results[j].Success?
    ensures Load(results) == Failure(MalformedLine(n, results[n].error))
  {
    LoadFailsAtFirstBadLine(results);
    var k := Load(results).error.lineNo;
    if k < n {
      assert false;
    } else if k > n {
      assert false;
    }
  }

  /** Reference reading of parsed lines: the records, in file order. */
  function Records(results: seq<LineResult>): Result<seq<Record>, IndexFault>
    decreases |results|
  {
    if |results| == 0 then Success([])
    else
      var n := |results| - 1;
      match Records(results[..n])
      case Failure(e) => Failure(e)
      case Success(recs) =>
        match results[n]
        case Failure(f) => Failure(MalformedLine(n, f))
        case Success(None) => Success(recs)
        case Success(Some(rec)) => Success(recs + [rec])
  }

  /** The last record written for a slot. */
  function LastFor(recs: seq<Record>, slot: nat): Option<Record>
    decreases |recs|
  {
    if |recs| == 0 then None
    else if SlotOf(recs[|recs| - 1].coverId) == slot then Some(recs[|recs| - 1])
    else LastFor(recs[..|recs| - 1], slot)
  }

  /** Reference table: each slot holds the offset and size of the last record
      for it, or zeros when no record names it. */
  function LastWriteTable(recs: seq<Record>): (t: Table)
    ensures Valid(t)
  {
    Table(
      seq(ItemSize, k requires 0 <= k < ItemSize => if LastFor(recs, k).Some? then LastFor(recs, k).value.offset else 0),
      seq(ItemSize, k requires 0 <= k < ItemSize => if LastFor(recs, k).Some? then LastFor(recs, k).value.size else 0))
  }

  lemma StoreIsLastWrite(recs: seq<Record>, rec: Record)
    ensures Store(LastWriteTable(recs), rec) == LastWriteTable(recs + [rec])
  {
    var extended := recs + [rec];
    assert extended[..|extended| - 1] == recs;
    var a := Store(LastWriteTable(recs), rec);
    var b := LastWriteTable(extended);
    assert forall k :: 0 <= k < ItemSize ==> a.offsets[k] == b.offsets[k] && a.sizes[k] == b.sizes[k];
  }

  /** Last write wins: the loaded arrays hold, at every slot, the offset and
      size of the last record for that slot, and zeros elsewhere; and the
      fold fails with the same error as the reading of the records. */
  lemma {:induction false} LoadIsLastWriteWins(results: seq<LineResult>)
    ensures Load(results).Success? <==> Records(results).Success?
    ensures Load(results).Success? ==> Load(results).value == LastWriteTable(Records(results).value)
    ensures Load(results).Failure? ==> Load(results).error == Records(results).error
    decreases |results|
  {
    if |results| == 0 {
      var e := EmptyTable();
      var b := LastWriteTable([]);
      assert forall k :: 0 <= k < ItemSize ==> e.offsets[k] == b.offsets[k] && e.sizes[k] == b.sizes[k];
    } else {
      var n := |results| - 1;
      LoadIsLastWriteWins(results[..n]);
      if Records(results[..n]).Success? {
        var recs := Records(results[..n]).value;
        match results[n] {
          case Failure(_) =>
          case Success(None) =>
          case Success(Some(rec)) =>
            StoreIsLastWrite(recs, rec);
        }
      }
    }
  }

  /** Appending a parsed line to the fold: a blank line changes nothing, a
      record is stored over whatever its slot held. */
  lemma LoadAppend(results: seq<LineResult>, last: LineResult)
    requires Load(results).Success? && last.Success?
    ensures Load(results + [last]) ==
      if last.value.None? then Load(results) else Success(Store(Load(results).value, last.value.value))
  {
    assert (results + [last])[..|results|] == results;
  }

  /** A blank or whitespace-only line changes nothing. */
  lemma BlankLineIsIgnored(lines: seq<string>, blank: string)
    requires Strip(blank) == ""
    ensures ParseTarIndex(lines + [blank]) == ParseTarIndex(lines)
  {
    ParsedLinesAppend(lines, blank);
    var p := ParsedLines(lines);
    assert (p + [ParseLine(blank)])[..|p|] == p;
  }

  /** A later record is stored over whatever an earlier line put in its
      slot, leaving every other slot alone (the contract of `Store`). */
  lemma LaterRecordOverwrites(lines: seq<string>, line: string, rec: Record)
    requires ParseTarIndex(lines).Success?
    requires ParseLine(line) == Success(Some(rec))
    ensures ParseTarIndex(lines + [line]) == Success(Store(ParseTarIndex(lines).value, rec))
  {
    ParsedLinesAppend(lines, line);
    LoadAppend(ParsedLines(lines), ParseLine(line));
  }

  /** A line of an index file: the member name, then the offset and the
      size, tab-separated. */
  function EntryLine(name: string, offset: int, size: int): string
  {
    name + "\t" + FormatInt(offset) + "\t" + FormatInt(size)
  }

  /** The line the archiver writes for an image: `"%010d.jpg"`, then the
      offset and the size. */
  function IndexLine(id: int, offset: int, size: int): string
  {
    EntryLine(FormatPadded(id, 10) + ".jpg", offset, size)
  }

  /** Round trip: a written index line parses back to the record it
      describes, for every id of at most ten digits and every offset and size
      an `array('L')` can hold. */
  lemma IndexLineParses(id: int, offset: int, size: int)
    requires 0 <= id < 10_000_000_000
    requires 0 <= offset <= MaxUnsignedLong && 0 <= size <= MaxUnsignedLong
    ensures ParseLine(IndexLine(id, offset, size)) == Success(Some(Record(id, offset, size)))
  {
    NameSuffixIgnored(id, ".jpg", offset, size);
  }

  /** Only the first ten characters of a member name are read: whatever
      follows the padded id (here `.jpg`) is ignored, as long as it holds no
      tab. */
  lemma NameSuffixIgnored(id: int, suffix: string, offset: int, size: int)
    requires 0 <= id < 10_000_000_000 && '\t' !in suffix
    requires 0 <= offset <= MaxUnsignedLong && 0 <= size <= MaxUnsignedLong
    ensures ParseLine(EntryLine(FormatPadded(id, 10) + suffix, offset, size)) == Success(Some(Record(id, offset, size)))
  {
    EntryLineSplits(id, suffix, offset, size);
    EntryFieldsParse(id, suffix, offset, size);
  }

  /** An entry line is already stripped and splits into its three fields. */
  lemma EntryLineSplits(id: int, suffix: string, offset: int, size: int)
    requires id >= 0 && offset >= 0 && size >= 0 && '\t' !in suffix
    ensures var line := EntryLine(FormatPadded(id, 10) + suffix, offset, size);
      && Strip(line) == line && line != ""
      && Split(line, '\t') == [FormatPadded(id, 10) + suffix, FormatInt(offset), FormatInt(size)]
  {
    var padded := FormatPadded(id, 10);
    var name := padded + suffix;
    var off := FormatInt(offset);
    var sz := FormatInt(size);
    assert IsDigit(name[0]) && IsDigit(sz[|sz| - 1]);
    assert '\t' !in name by {
      assert forall i :: 0 <= i < |padded| ==> IsDigit(name[i]);
      assert forall i :: |padded| <= i < |name| ==> name[i] == suffix[i - |padded|];
    }
    assert '\t' !in off && '\t' !in sz;
    ThreeFields(name, off, sz, '\t');
  }

  /** Three separator-free, non-blank-edged fields joined by a separator
      that is not whitespace are stripped already and split back apart. */
  lemma ThreeFields(a: string, b: string, c: string, sep: char)
    requires sep !in a && sep !in b && sep !in c
    requires |a| > 0 && !IsSpace(a[0]) && |c| > 0 && !IsSpace(c[|c| - 1])
    ensures var line := a + [sep] + b + [sep] + c;
      Strip(line) == line && line != "" && Split(line, sep) == [a, b, c]
  {
    var line := a + [sep] + b + [sep] + c;
    assert line[0] == a[0] && line[|line| - 1] == c[|c| - 1];
    StripCanonical(line);
    assert Join([a, b, c], [sep]) == line by {
      assert [a, b, c][1..] == [b, c];
      assert [b, c][1..] == [c];
      assert Join([b, c], [sep]) == b + [sep] + c;
      assert a + [sep] + (b + [sep] + c) == line;
    }
    SplitJoin([a, b, c], sep);
  }

  /** The three fields of an entry line convert back to its numbers. */
  lemma EntryFieldsParse(id: int, suffix: string, offset: int, size: int)
    requires 0 <= id < 10_000_000_000
    requires 0 <= offset <= MaxUnsignedLong && 0 <= size <= MaxUnsignedLong
    ensures ParseFields([FormatPadded(id, 10) + suffix, FormatInt(offset), FormatInt(size)])
      == Success(Some(Record(id, offset, size)))
  {
    var padded := FormatPadded(id, 10);
    assert Pow10(10) == 10_000_000_000;
    PaddedLength(id, 10);
    assert Take(padded + suffix, 10) == padded;
    FormatPaddedParses(id, 10);
    UnsignedRoundTrip(offset);
    UnsignedRoundTrip(size);
    FieldsParse([padded + suffix, FormatInt(offset), FormatInt(size)], id, offset, size);
  }

  lemma FieldsParse(fields: seq<string>, id: int, offset: int, size: int)
    requires |fields| == 3 && ParseInt(Take(fields[0], 10)) == Some(id)
    requires ParseUnsigned(fields[1]) == Success(offset)
    requires ParseUnsigned(fields[2]) == Success(size)
    ensures ParseFields(fields) == Success(Some(Record(id, offset, size)))
  {
  }

  lemma UnsignedRoundTrip(n: int)
    requires 0 <= n <= MaxUnsignedLong
    ensures ParseUnsigned(FormatInt(n)) == Success(n)
  {
    FormatPaddedParses(n, 0);
  }

  /** Appending the line for `(id, offset, size)` to a well-formed index file
      makes the id's slot read back exactly that offset and size. */
  lemma AppendedLineReadsBack(lines: seq<string>, id: int, offset: int, size: int)
    requires ParseTarIndex(lines).Success?
    requires 0 <= id < 10_000_000_000
    requires 0 <= offset <= MaxUnsignedLong && 0 <= size <= MaxUnsignedLong
    ensures var r := ParseTarIndex(lines + [IndexLine(id, offset, size)]);
      && r.Success?
      && r.value.offsets[SlotOf(id)] == offset
      && r.value.sizes[SlotOf(id)] == size
  {
    IndexLineParses(id, offset, size);
    LaterRecordOverwrites(lines, IndexLine(id, offset, size), Record(id, offset, size));
  }
}

=== FILE: vendors.dfy ===
/** The Amazon and Better World Books helpers of the vendor module: splitting
    an Amazon title into title and subtitle, turning Amazon product metadata
    into an import record, and formatting a Better World Books offer. */
module Vendors {
  import opened Wrappers
  import opened PyText
  import opened ParenStrip

  /** The ISBD separator placed between title units. */
  const IsbdUnitPunct: string := " : "

  /** `unit.strip()` for every unit. */
  function StripAll(units: seq<string>): (r: seq<string>)
    ensures |r| == |units|
    ensures forall i :: 0 <= i < |units| ==> r[i] == Strip(units[i])
    decreases |units|
  {
    if |units| == 0 then [] else [Strip(units[0])] + StripAll(units[1..])
  }

  /** `split_amazon_title(full_title)`: parenthetical blocks are deleted,
      then the rest is split into units. */
  function SplitAmazonTitle(full: string): (r: (string, Option<string>))
    ensures r.1.None? <==> ':' !in StripParens(full)
    ensures r.1.None? ==> r.0 == Strip(StripParens(full))
    ensures r.1.Some? ==> ':' !in r.1.value && Canonical(r.1.value)
  {
    SplitUnits(StripParens(full))
  }

  /** The split of the parenthesis-free title at every `:`: when there is
      more than one unit the last one, stripped, is the subtitle and the
      others, stripped, are joined by `" : "` into the title. */
  function SplitUnits(t: string): (r: (string, Option<string>))
    ensures r.1.None? <==> ':' !in t
    ensures r.1.None? ==> r.0 == Strip(t)
    ensures r.1.Some? ==> ':' !in r.1.value && Canonical(r.1.value)
  {
    var titles := Split(t, ':');
    if |titles| > 1 then
      var last := |titles| - 1;
      (Join(StripAll(titles[..last]), IsbdUnitPunct), Some(Strip(titles[last])))
    else
      assert titles == [t];
      (Strip(titles[0]), None)
  }

  /** Units joined by `" : "`, after some leading whitespace, split at `:`
      and stripped give back the units. */
  lemma {:induction false} UnitsRoundTrip(pre: string, units: seq<string>)
    requires AllSpace(pre) && |units| >= 1
    requires forall i :: 0 <= i < |units| ==> Canonical(units[i]) && ':' !in units[i]
    ensures StripAll(Split(pre + Join(units, IsbdUnitPunct), ':')) == units
    decreases |units|
  {
    var u := units[0];
    if |units| == 1 {
      assert ':' !in pre + u;
      StripPadded(pre, u, "");
      assert pre + u + "" == pre + u;
    } else {
      var rest := Join(units[1..], IsbdUnitPunct);
      var head := pre + u + " ";
      JoinFirst(pre, units);
      SplitAtFirst(head, ':', " " + rest);
      UnitsRoundTrip(" ", units[1..]);
      StripPadded(pre, u, " ");
      StripAllCons(head, Split(" " + rest, ':'));
      assert [u] + units[1..] == units;
    }
  }

  /** The first unit of a join, with the spaces of the separator around its
      colon. */
  lemma JoinFirst(pre: string, units: seq<string>)
    requires |units| >= 2
    requires ':' !in pre && ':' !in units[0]
    ensures pre + Join(units, IsbdUnitPunct)
      == (pre + units[0] + " ") + [':'] + (" " + Join(units[1..], IsbdUnitPunct))
    ensures ':' !in pre + units[0] + " "
  {
    var j := Join(units[1..], IsbdUnitPunct);
    assert Join(units, IsbdUnitPunct) == units[0] + IsbdUnitPunct + j;
    Regroup3(pre, units[0], j);
  }

  lemma Regroup3(pre: string, u: string, j: string)
    ensures pre + (u + IsbdUnitPunct + j) == (pre + u + " ") + [':'] + (" " + j)
  {
    assert IsbdUnitPunct == " " + [':'] + " ";
  }

  lemma StripAllCons(head: string, fields: seq<string>)
    ensures StripAll([head] + fields) == [Strip(head)] + StripAll(fields)
  {
    assert ([head] + fields)[1..] == fields;
  }

  /** No unit of the join holds a character that neither the units nor the
      separator hold. */
  lemma {:induction false} JoinAvoids(units: seq<string>, sep: string, c: char)
    requires c !in sep
    requires forall i :: 0 <= i < |units| ==> c !in units[i]
    ensures c !in Join(units, sep)
    decreases |units|
  {
    if |units| > 1 {
      JoinAvoids(units[1..], sep, c);
    }
  }

  /** Round trip: a title written as `u1 : u2 : … : uk` with k >= 2 clean
      units (stripped, without `:` or `(`) splits back into the first k-1
      units as the title and the last one as the subtitle. */
  lemma TitleRoundTrip(units: seq<string>)
    requires |units| >= 2
    requires forall i :: 0 <= i < |units| ==> Canonical(units[i]) && ':' !in units[i] && '(' !in units[i]
    ensures var k := |units|;
      SplitAmazonTitle(Join(units, IsbdUnitPunct)) == (Join(units[..k - 1], IsbdUnitPunct), Some(units[k - 1]))
  {
    var s := Join(units, IsbdUnitPunct);
    JoinAvoids(units, IsbdUnitPunct, '(');
    UnmatchedUnchanged(s);
    UnitsSplit(s, units);
  }

  /** The units of a `" : "` join come back out of the split. */
  lemma UnitsSplit(s: string, units: seq<string>)
    requires |units| >= 2 && s == Join(units, IsbdUnitPunct)
    requires forall i :: 0 <= i < |units| ==> Canonical(units[i]) && ':' !in units[i]
    ensures var k := |units|;
      SplitUnits(s) == (Join(units[..k - 1], IsbdUnitPunct), Some(units[k - 1]))
  {
    UnitsRoundTrip("", units);
    assert "" + s == s;
    SplitOfStripped(s, units);
  }

  /** Whatever string splits into fields that strip to `units` splits into
      those units. */
  lemma SplitOfStripped(s: string, units: seq<string>)
    requires |units| >= 2 && StripAll(Split(s, ':')) == units
    ensures var k := |units|;
      SplitUnits(s) == (Join(units[..k - 1], IsbdUnitPunct), Some(units[k - 1]))
  {
    var titles := Split(s, ':');
    SplitIntoUnits(s, titles);
    StripAllPrefix(titles, |titles| - 1);
  }

  /** `SplitUnits` of a string with at least one `:`, in terms of its fields. */
  lemma SplitIntoUnits(s: string, titles: seq<string>)
    requires titles == Split(s, ':') && |titles| > 1
    ensures SplitUnits(s) == (Join(StripAll(titles[..|titles| - 1]), IsbdUnitPunct), Some(Strip(titles[|titles| - 1])))
  {
  }

  lemma StripAllPrefix(units: seq<string>, n: nat)
    requires n <= |units|
    ensures StripAll(units[..n]) == StripAll(units)[..n]
  {
    assert forall i :: 0 <= i < n ==> units[..n][i] == units[i];
  }

  /** A clean single unit is its own title, with no subtitle. */
  lemma SingleUnitTitle(unit: string)
    requires Canonical(unit) && ':' !in unit && '(' !in unit
    ensures SplitAmazonTitle(unit) == (unit, None)
  {
    UnmatchedUnchanged(unit);
    StripCanonical(unit);
  }

  /** A trailing parenthetical tag such as `Title (Paperback)` is dropped and
      the whitespace before it stripped. */
  lemma TrailingTagDropped(title: string, tag: string)
    requires Canonical(title) && ':' !in title && '(' !in title && ParenFree(tag)
    ensures SplitAmazonTitle(title + " (" + tag + ")") == (title, None)
  {
    var pre := title + " ";
    assert '(' !in pre;
    SimpleBlockRemoved(pre, tag, "");
    assert pre + "(" + tag + ")" + "" == title + " (" + tag + ")";
    assert StripParens("") == "";
    assert pre + "" == pre;
    assert ':' !in pre;
    StripPadded("", title, " ");
    assert "" + title + " " == pre;
  }

  /** The JSON-like values of an Amazon metadata dictionary. */
  datatype Json =
    | JNull
    | JBool(b: bool)
    | JNum(n: int)
    | JStr(s: string)
    | JList(items: seq<Json>)
    | JObj(fields: map<string, Json>)

  /** Python truthiness of a value. */
  predicate Truthy(v: Json) {
    match v
    case JNull => false
    case JBool(b) => b
    case JNum(n) => n != 0
    case JStr(s) => |s| > 0
    case JList(items) => |items| > 0
    case JObj(fields) => |fields| > 0
  }

  /** The keys of a metadata dictionary: the ones the cleaning step names,
      and any other key by its text. */
  datatype Key =
    | Title | Authors | PublishDate | SourceRecords | NumberOfPages
    | Publishers | Cover | Isbn10 | Isbn13 | PhysicalFormat
    | Identifiers | FullTitle | Subtitle | Notes
    | Other(name: string)
  {
    /** The dictionary key as Python spells it. */
    function Name(): string {
      match this
      case Title => "title"
      case Authors => "authors"
      case PublishDate => "publish_date"
      case SourceRecords => "source_records"
      case NumberOfPages => "number_of_pages"
      case Publishers => "publishers"
      case Cover => "cover"
      case Isbn10 => "isbn_10"
      case Isbn13 => "isbn_13"
      case PhysicalFormat => "physical_format"
      case Identifiers => "identifiers"
      case FullTitle => "full_title"
      case Subtitle => "subtitle"
      case Notes => "notes"
      case Other(name) => name
    }

    /** One of the ten fields an import record keeps as they are. */
    predicate IsConforming() {
      !Other? && !IsDerived()
    }

    /** One of the keys cleaning may add besides the conforming fields. */
    predicate IsDerived() {
      Identifiers? || FullTitle? || Subtitle? || Notes?
    }

    /** The one spelling of each key: `Other` never carries the text of a
        named key. Metadata dictionaries use canonical keys only. */
    predicate Canonical() {
      Other? ==> name !in NamedKeys
    }

    /** One of the keys the title step writes. */
    predicate IsTitleKey() {
      Title? || FullTitle? || Subtitle? || Notes?
    }
  }

  /** The texts of the named keys. */
  const NamedKeys: set<string> := {
    "title", "authors", "publish_date", "source_records", "number_of_pages",
    "publishers", "cover", "isbn_10", "isbn_13", "physical_format",
    "identifiers", "full_title", "subtitle", "notes"}

  /** The key a dictionary key's text stands for. */
  function KeyOf(name: string): (k: Key)
    ensures k.Name() == name
    ensures k.Canonical()
  {
    if name == "title" then Title
    else if name == "authors" then Authors
    else if name == "publish_date" then PublishDate
    else if name == "source_records" then SourceRecords
    else if name == "number_of_pages" then NumberOfPages
    else if name == "publishers" then Publishers
    else if name == "cover" then Cover
    else if name == "isbn_10" then Isbn10
    else if name == "isbn_13" then Isbn13
    else if name == "physical_format" then PhysicalFormat
    else if name == "identifiers" then Identifiers
    else if name == "full_title" then FullTitle
    else if name == "subtitle" then Subtitle
    else if name == "notes" then Notes
    else Other(name)
  }

  /** A canonical key is the key of its own text, so keys and their texts
      are in one-to-one correspondence. */
  lemma KeyOfName(k: Key)
    requires k.Canonical()
    ensures KeyOf(k.Name()) == k
  {
  }

  /** A metadata dictionary. */
  type Metadata = map<Key, Json>

  /** `{k: metadata[k] for k in conforming_fields if metadata.get(k) is not None}` */
  function Conforming(m: Metadata): (r: Metadata)
    ensures forall k :: k in r <==> k.IsConforming() && k in m && m[k] != JNull
    ensures forall k :: k in r ==> r[k] == m[k]
  {
    map k | k in m.Keys && k.IsConforming() && m[k] != JNull :: m[k]
  }

  /** How cleaning Amazon metadata can raise. */
  datatype CleanError =
    | SourceRecordsNotIndexable  // `source_records[0]` on a number, a bool or a dict
    | SourceRecordNotText        // the first record has no `replace`
    | EmptyAsin                  // `asin[0]` of an empty string
    | MissingTitle               // `metadata['title']` raises `KeyError`
    | TitleNotText               // the title is not a string

  /** `source_records[0]` of a truthy value: the first item of a list, the
      first character of a string; `None` where Python raises. */
  function FirstSourceRecord(v: Json): (r: Option<Json>)
    requires Truthy(v)
    ensures r.Some? <==> v.JList? || v.JStr?
  {
    match v
    case JList(items) => Some(items[0])
    case JStr(s) => Some(JStr([s[0]]))
    case _ => None
  }

  /** The ASIN kept from a textual source record: every `amazon:` removed,
      kept only when it starts with a letter (an ISBN adds nothing). */
  function AsinOf(record: string): (r: Result<Option<string>, CleanError>)
    ensures r.Failure? <==> RemoveAll(record, "amazon:") == ""
    ensures r.Success? && r.value.Some? ==> r.value.value == RemoveAll(record, "amazon:")
    ensures r.Success? ==> (r.value.Some? <==> IsAsciiAlpha(RemoveAll(record, "amazon:")[0]))
  {
    var asin := RemoveAll(record, "amazon:");
    if |asin| == 0 then Failure(EmptyAsin)
    else if IsAsciiAlpha(asin[0]) then Success(Some(asin))
    else Success(None)
  }

  /** The ASIN step of `clean_amazon_metadata_for_load`: nothing when
      `source_records` is missing or falsy, else the ASIN of its first entry. */
  function AmazonAsin(m: Metadata): (r: Result<Option<string>, CleanError>)
    ensures (SourceRecords !in m || !Truthy(m[SourceRecords])) ==> r == Success(None)
    ensures SourceRecords in m && Truthy(m[SourceRecords]) ==>
      var first := FirstSourceRecord(m[SourceRecords]);
      && (first.None? ==> r == Failure(SourceRecordsNotIndexable))
      && (first.Some? && !first.value.JStr? ==> r == Failure(SourceRecordNotText))
      && (first.Some? && first.value.JStr? ==> r == AsinOf(first.value.s))
    ensures r.Success? && r.value.Some? ==>
      && SourceRecords in m && Truthy(m[SourceRecords])
      && FirstSourceRecord(m[SourceRecords]).Some?
      && FirstSourceRecord(m[SourceRecords]).value.JStr?
      && r == AsinOf(FirstSourceRecord(m[SourceRecords]).value.s)
  {
    if SourceRecords !in m || !Truthy(m[SourceRecords]) then Success(None)
    else
      match FirstSourceRecord(m[SourceRecords])
      case None => Failure(SourceRecordsNotIndexable)
      case Some(first) =>
        if first.JStr? then AsinOf(first.s) else Failure(SourceRecordNotText)
  }

  /** The `identifiers` value recording an ASIN. */
  function AmazonIdentifiers(asin: string): Json {
    JObj(map["amazon" := JList([JStr(asin)])])
  }

  /** The identifiers step: `identifiers` is set exactly when an ASIN was
      kept, and nothing else changes. */
  function WithIdentifiers(base: Metadata, asin: Option<string>): (o: Metadata)
    ensures Identifiers in o <==> asin.Some? || Identifiers in base
    ensures asin.Some? ==> o[Identifiers] == AmazonIdentifiers(asin.value)
    ensures forall k :: k != Identifiers ==> (k in o <==> k in base)
    ensures forall k :: k != Identifiers && k in o ==> o[k] == base[k]
  {
    if asin.Some? then base[Identifiers := AmazonIdentifiers(asin.value)] else base
  }

  /** Whether the split produced a subtitle Python treats as true. */
  predicate HasSubtitle(split: (string, Option<string>)) {
    split.1.Some? && split.1.value != ""
  }

  /** `conforming_metadata.get('full_title', title)` after the title step. */
  function FullTitleOf(split: (string, Option<string>)): string {
    if HasSubtitle(split) then split.0 + IsbdUnitPunct + split.1.value else split.0
  }

  /** The title step: `title` is overwritten by the split title; `full_title`
      and `subtitle` are set when the subtitle is non-empty; `notes` keeps the
      original when it differs from the full title, or from the title when
      there is none. Every other key is left alone. */
  function WithTitle(base: Metadata, original: string, split: (string, Option<string>)): (o: Metadata)
    requires FullTitle !in base && Subtitle !in base && Notes !in base
    ensures Title in o && o[Title] == JStr(split.0)
    ensures FullTitle in o <==> HasSubtitle(split)
    ensures Subtitle in o <==> HasSubtitle(split)
    ensures HasSubtitle(split) ==>
      o[FullTitle] == JStr(split.0 + IsbdUnitPunct + split.1.value) && o[Subtitle] == JStr(split.1.value)
    ensures Notes in o <==> JStr(original) != (if HasSubtitle(split) then o[FullTitle] else o[Title])
    ensures Notes in o ==> o[Notes] == JStr("Source title: " + original)
    ensures forall k: Key :: !k.IsTitleKey() ==> (k in o <==> k in base)
    ensures forall k: Key :: !k.IsTitleKey() && k in o ==> o[k] == base[k]
  {
    var titled := base[Title := JStr(split.0)];
    var subtitled :=
      if HasSubtitle(split) then titled[FullTitle := JStr(FullTitleOf(split))][Subtitle := JStr(split.1.value)]
      else titled;
    if original != FullTitleOf(split) then subtitled[Notes := JStr("Source title: " + original)]
    else subtitled
  }

  /** `clean_amazon_metadata_for_load(metadata)`: the conforming fields, then
      the ASIN (whose errors come first), then the title. */
  function CleanAmazonMetadata(m: Metadata): (r: Result<Metadata, CleanError>)
    ensures r.Failure? <==> AmazonAsin(m).Failure? || Title !in m || !m[Title].JStr?
    ensures AmazonAsin(m).Failure? ==> r == Failure(AmazonAsin(m).error)
    ensures AmazonAsin(m).Success? && Title !in m ==> r == Failure(MissingTitle)
  {
    var asin :- AmazonAsin(m);
    var withIds := WithIdentifiers(Conforming(m), asin);
    if Title !in m then Failure(MissingTitle)
    else if !m[Title].JStr? then Failure(TitleNotText)
    else
      var original := m[Title].s;
      Success(WithTitle(withIds, original, SplitAmazonTitle(original)))
  }

  /** The cleaned record holds the conforming fields that are not `None`,
      the title, and nothing but `identifiers`, `full_title`, `subtitle` and
      `notes` besides; `identifiers` is there exactly when an ASIN was
      kept. */
  lemma CleanedKeys(m: Metadata)
    requires CleanAmazonMetadata(m).Success?
    ensures var o := CleanAmazonMetadata(m).value;
      && (forall k :: k in o ==> k.IsConforming() || k.IsDerived())
      && (forall k: Key :: k.IsConforming() && k != Title ==> (k in o <==> k in m && m[k] != JNull))
      && Title in o
      && (Identifiers in o <==> AmazonAsin(m).value.Some?)
  {
    var o := CleanedRecord(m);
    LayerKeys(m, AmazonAsin(m).value, m[Title].s, SplitAmazonTitle(m[Title].s));
  }

  /** The keys of the three layers of a cleaned record. */
  lemma LayerKeys(m: Metadata, asin: Option<string>, original: string, split: (string, Option<string>))
    ensures var ids := WithIdentifiers(Conforming(m), asin);
      FullTitle !in ids && Subtitle !in ids && Notes !in ids
    ensures var o := WithTitle(WithIdentifiers(Conforming(m), asin), original, split);
      && (forall k :: k in o ==> k.IsConforming() || k.IsDerived())
      && (forall k: Key :: k.IsConforming() && k != Title ==> (k in o <==> k in m && m[k] != JNull))
      && Title in o
      && (Identifiers in o <==> asin.Some?)
  {
  }

  /** The conforming fields are copied unchanged, and the title is the
      split title without its subtitle. */
  lemma CleanedValues(m: Metadata)
    requires CleanAmazonMetadata(m).Success?
    ensures var o := CleanAmazonMetadata(m).value;
      && (forall k: Key :: k.IsConforming() && k != Title && k in o ==> o[k] == m[k])
      && Title in o && o[Title] == JStr(SplitAmazonTitle(m[Title].s).0)
  {
    var o := CleanedRecord(m);
  }

  /** A kept ASIN is recorded as `{'amazon': [asin]}`, the ASIN being the
      first source record with every `amazon:` removed. */
  lemma CleanedIdentifiers(m: Metadata)
    requires CleanAmazonMetadata(m).Success?
    ensures var o := CleanAmazonMetadata(m).value;
      var asin := AmazonAsin(m).value;
      asin.Some? ==> Identifiers in o && o[Identifiers] == AmazonIdentifiers(asin.value)
  {
    var o := CleanedRecord(m);
  }

  /** The cleaned record, built in its three layers. */
  lemma CleanedRecord(m: Metadata) returns (o: Metadata)
    requires CleanAmazonMetadata(m).Success?
    ensures o == CleanAmazonMetadata(m).value
    ensures o == WithTitle(WithIdentifiers(Conforming(m), AmazonAsin(m).value), m[Title].s, SplitAmazonTitle(m[Title].s))
  {
    assert AmazonAsin(m).Success? && Title in m && m[Title].JStr?;
    var original := m[Title].s;
    o := WithTitle(WithIdentifiers(Conforming(m), AmazonAsin(m).value), original, SplitAmazonTitle(original));
  }

  /** The cleaned title fields: `full_title` and `subtitle` exactly when the
      subtitle is non-empty, and a note exactly when the original title is
      not the full title (or the title, when there is none). */
  lemma CleanedTitle(m: Metadata)
    requires CleanAmazonMetadata(m).Success?
    ensures var o := CleanAmazonMetadata(m).value;
      var original := m[Title].s;
      var split := SplitAmazonTitle(original);
      && (FullTitle in o <==> HasSubtitle(split))
      && (Subtitle in o <==> HasSubtitle(split))
      && (HasSubtitle(split) ==> o[FullTitle] == JStr(split.0 + IsbdUnitPunct + split.1.value)
                                 && o[Subtitle] == JStr(split.1.value))
      && (Notes in o <==> original != FullTitleOf(split))
      && (Notes in o ==> o[Notes] == JStr("Source title: " + original))
  {
    var o := CleanedRecord(m);
  }

  /** A title already in catalogue form, `A : B`, is kept as it is: it
      becomes title and subtitle and no note records a change. */
  lemma CanonicalTitleHasNoNote(m: Metadata, a: string, b: string)
    requires Canonical(a) && ':' !in a && '(' !in a
    requires Canonical(b) && ':' !in b && '(' !in b && b != ""
    requires Title in m && m[Title] == JStr(a + IsbdUnitPunct + b)
    requires AmazonAsin(m).Success?
    ensures CleanAmazonMetadata(m).Success?
    ensures var o := CleanAmazonMetadata(m).value;
      && Title in o && o[Title] == JStr(a)
      && Subtitle in o && o[Subtitle] == JStr(b)
      && Notes !in o
  {
    var units := [a, b];
    assert Join(units, IsbdUnitPunct) == a + IsbdUnitPunct + b by {
      assert Join(units[1..], IsbdUnitPunct) == b;
    }
    TitleRoundTrip(units);
    assert units[..1] == [a];
    assert SplitAmazonTitle(a + IsbdUnitPunct + b) == (a, Some(b));
    CleanedKeys(m);
    CleanedTitle(m);
  }

  /** A title the split changed, such as one that lost a parenthetical tag
      (see `TrailingTagDropped`), keeps the original in a note. */
  lemma ChangedTitleGetsNote(m: Metadata, title: string)
    requires CleanAmazonMetadata(m).Success?
    requires SplitAmazonTitle(m[Title].s) == (title, None) && m[Title].s != title
    ensures var o := CleanAmazonMetadata(m).value;
      && Title in o && o[Title] == JStr(title) && Subtitle !in o
      && Notes in o && o[Notes] == JStr("Source title: " + m[Title].s)
  {
    CleanedKeys(m);
    CleanedTitle(m);
  }

  /** An Amazon source record yields its ASIN when the ASIN starts with a
      letter, and nothing when it is an ISBN. */
  lemma AmazonRecordAsin(asin: string)
    requires |asin| > 0 && !Contains(asin, "amazon:")
    ensures AsinOf("amazon:" + asin) == (if IsAsciiAlpha(asin[0]) then Success(Some(asin)) else Success(None))
  {
    var record := "amazon:" + asin;
    assert record[..7] == "amazon:";
    assert record[7..] == asin;
    RemoveAbsent(asin, "amazon:");
  }

  /** End to end: metadata whose first source record is `amazon:<asin>`, with
      an ASIN that starts with a letter, is cleaned into a record whose
      `identifiers` are `{'amazon': [asin]}`. */
  lemma AmazonSourceRecordKept(m: Metadata, asin: string, rest: seq<Json>)
    requires SourceRecords in m && m[SourceRecords] == JList([JStr("amazon:" + asin)] + rest)
    requires |asin| > 0 && !Contains(asin, "amazon:") && IsAsciiAlpha(asin[0])
    requires Title in m && m[Title].JStr?
    ensures CleanAmazonMetadata(m).Success?
    ensures var o := CleanAmazonMetadata(m).value;
      Identifiers in o && o[Identifiers] == AmazonIdentifiers(asin)
  {
    AmazonRecordAsin(asin);
    assert FirstSourceRecord(m[SourceRecords]) == Some(JStr("amazon:" + asin));
    assert AmazonAsin(m) == Success(Some(asin));
    CleanedIdentifiers(m);
  }

  /** `BWB_AFFILIATE_LINK % isbn`. */
  function BwbLink(affiliateId: string, isbn: string): (link: string)
    ensures StartsWith(link, "http://www.anrdoezrs.net/links/" + affiliateId + "/")
    ensures |isbn| <= |link| && link[|link| - |isbn|..] == isbn
  {
    var site := "http://www.anrdoezrs.net/links/" + affiliateId + "/";
    var target := "type/dlg/http://www.betterworldbooks.com/-id-";
    assert (site + target + isbn)[..|site|] == site;
    site + target + isbn
  }

  /** The price display `"$<price> (<qlt>)"`. */
  function PriceDisplay(price: string, qlt: string): string {
    "$" + price + " (" + qlt + ")"
  }

  /** The dictionary `betterworldbooks_fmt` returns. */
  datatype BwbOffer = BwbOffer(
    url: string,
    isbn: string,
    marketPrice: Option<string>,
    price: Option<string>,
    priceAmt: Option<string>,
    qlt: Option<string>)

  /** `betterworldbooks_fmt(isbn, qlt, price, market_price)`. */
  function BetterWorldBooksFmt(affiliateId: string, isbn: string, qlt: Option<string>,
                               price: Option<string>, marketPrice: Option<string>): (r: BwbOffer)
    ensures r.price.Some? <==> price.Some? && price.value != "" && qlt.Some? && qlt.value != ""
    ensures r.price.Some? ==> r.price.value == PriceDisplay(price.value, qlt.value)
    ensures r.isbn == isbn && r.priceAmt == price && r.qlt == qlt && r.marketPrice == marketPrice
    ensures r.url == BwbLink(affiliateId, isbn)
  {
    var priceFmt :=
      if price.Some? && price.value != "" && qlt.Some? && qlt.value != "" then Some(PriceDisplay(price.value, qlt.value))
      else None;
    BwbOffer(BwbLink(affiliateId, isbn), isbn, marketPrice, priceFmt, price, qlt)
  }

  /** Reads a price display back into price and quality: the price runs up to
      the first `" ("`, the quality from there to the closing `)`. */
  function ParsePriceDisplay(d: string): (r: Option<(string, string)>)
  {
    if |d| >= 4 && d[0] == '$' && d[|d| - 1] == ')' && '(' in d[1..] then
      var i := 1 + IndexOf(d[1..], '(');
      if 2 <= i && d[i - 1] == ' ' && i < |d| - 1 then Some((d[1..i - 1], d[i + 1..|d| - 1])) else None
    else None
  }

  /** The price display can be read back, as long as the price itself holds
      no `(`. */
  lemma PriceDisplayRoundTrip(price: string, qlt: string)
    requires '(' !in price
    ensures ParsePriceDisplay(PriceDisplay(price, qlt)) == Some((price, qlt))
  {
    var d := PriceDisplay(price, qlt);
    var n := |price|;
    assert d == "$" + price + " (" + qlt + ")";
    assert d[1..] == price + " (" + qlt + ")";
    assert d[1..][n + 1] == '(';
    assert forall j :: 0 <= j < n ==> d[1..][j] == price[j];
    assert IndexOf(d[1..], '(') == n + 1;
    assert d[1..n + 1] == price;
    assert d[n + 3..|d| - 1] == qlt;
  }

  /** The offer link ends in the ISBN, so two offers of one affiliate share a
      link exactly when they share an ISBN. */
  lemma BwbLinkNamesIsbn(affiliateId: string, a: string, b: string)
    ensures BwbLink(affiliateId, a) == BwbLink(affiliateId, b) <==> a == b
  {
    var p := "http://www.anrdoezrs.net/links/" + affiliateId + "/" + "type/dlg/http://www.betterworldbooks.com/-id-";
    assert BwbLink(affiliateId, a) == p + a;
    assert BwbLink(affiliateId, b) == p + b;
    if p + a == p + b {
      assert a == (p + a)[|p|..];
      assert b == (p + b)[|p|..];
    }
  }
}

=== FILE: wrappers.dfy ===
/** Failure-compatible wrappers used throughout the model: Python's `None`
    becomes `Option.None`, and an exception that escapes a routine becomes
    `Result.Failure`. */
module Wrappers {

  datatype Option<+T> = None | Some(value: T) {

    predicate IsFailure() {
      None?
    }

    function PropagateFailure<U>(): Option<U>
      requires None?
    {
      None
    }

    function Extract(): T
      requires Some?
    {
      value
    }
  }

  datatype Result<+T, +E> = Success(value: T) | Failure(error: E) {

    predicate IsFailure() {
      Failure?
    }

    function PropagateFailure<U>(): Result<U, E>
      requires Failure?
    {
      Failure(error)
    }

    function Extract(): T
      requires Success?
    {
      value
    }
  }
}
